=== FILE: README.md ===
# QuickText snippet engine, in Dafny

QuickText is a browser extension that expands short text triggers (such as
`/sig`) and hotkeys (such as `Ctrl+Shift+K`) into stored snippets while the
user types in a web page. It ships as two variants, one for Chromium and one
for Firefox, and each has a content script (trigger detection and text
replacement in the page) and an options page (the stored snippet list).

This project models the core of both variants and proves properties about
it. It keeps the places where the variants differ.

- `wrappers.dfy` (`Wrappers`): `Option` and `Result`.
- `js_string.dfy` (`JsString`): the JavaScript string operations the
  extension relies on. These are `endsWith`, `startsWith`, `includes`,
  `lastIndexOf`, ASCII `toLowerCase`, `trim`, and `split`/`join` on one
  character.
- `rules.dfy` (`Rules`): a snippet (`Rule`) and its classification as text
  trigger or hotkey (a trigger containing `+`). Also `findIndex`, the
  `splice(index, 1)` removal, and the shape of an imported JSON payload.
- `html.dfy` (`Html`): an abstract HTML fragment, its `textContent`, and
  the Firefox `sanitizeHTML`. That function drops `script`, `iframe`,
  `object`, `embed` and `form` elements with their subtrees, and drops
  every `on*` attribute and every attribute whose value mentions
  `javascript:`.
- `expansion.dfy` (`Expansion`): `expandSnippet`, shared by both variants.
  In an input or textarea it replaces the trigger just before the caret.
  In a contenteditable text node it splits the node around the inserted
  content. Also the selection replacement used by the Chromium hotkey
  path.
- `chromium_engine.dfy` (`ChromiumEngine`): the Chromium content script.
  - The input listener tests the whole text, then the text before the
    caret.
  - Rich text is reduced without sanitising.
  - The pressed-key set is tracked across keydown and keyup.
  - A hotkey fires when all its parts are held and the set has exactly
    that many keys.
  - Also the expansion request message.
- `mozilla_engine.dfy` (`MozillaEngine`): the Firefox content script.
  - Only the text before the caret is tested.
  - The "contains `<` and `>`" rich-text heuristic.
  - Sanitised insertion.
  - The hotkey handler, built on a combination string (`Ctrl+Alt+Shift+Meta+key`
    in that fixed order).
  - The expansion request message.
- `chromium_options.dfy` (`ChromiumOptions`): add with trigger
  classification and hotkey validation, edit, delete, and the import with
  its in-place overwrite-or-append merge.
- `mozilla_options.dfy` (`MozillaOptions`): add with duplicate
  confirmation, edit, delete with confirmation, the 50-character preview,
  and the import with its filter-then-append merge.
- `variants.dfy` (`Variants`): where the two variants agree and where they
  differ.

The HTML parser behind `innerHTML = value` is a parameter
(`Parser = string -> seq<Node>`). Everything is proved for every parser.
Fields are modelled as a value plus a selection, `Field(value, selStart,
selEnd)`. The caret's text node in a contenteditable element is
`Caret(text, offset, selEnd)`, with the selection `[offset, selEnd)` in
that node.

## Model

| member | source | states |
|---|---|---|
| JsString.LastIndexOf | Chromium/content_script.js:41 | the result is -1 or a position where the needle occurs, and no later position holds it |
| JsString.LastIndexOfFound | Chromium/content_script.js:43 | `lastIndexOf` returns -1 exactly when the needle does not occur |
| JsString.LastIndexOfSuffix | Chromium/content_script.js:80-82 | once the text before the caret ends with the trigger, the last occurrence is that suffix, so the `!== -1` test adds nothing |
| JsString.Lower | Chromium/content_script.js:143 | lower-casing keeps the length and maps each character on its own |
| JsString.LowerIdempotent | Mozilla/content_script.js:204 | lower-casing twice is lower-casing once, so comparing lower-cased strings is stable |
| JsString.LowerOccurs | Mozilla/content_script.js:25 | an occurrence in a string is still an occurrence after both sides are lower-cased |
| JsString.Trim | Chromium/options.js:120 | exactly the leading and trailing white space is removed: the result occurs in the input with only white space before and after it, neither starts nor ends with white space, and is empty exactly when the input is all white space |
| JsString.Split | Chromium/content_script.js:143 | splitting gives at least one part, and no part contains the separator |
| JsString.SplitJoin | Chromium/content_script.js:143 | joining the parts of a split with the same separator gives the original string back |
| JsString.JoinSplit | Mozilla/content_script.js:201 | splitting a join of separator-free parts gives the parts back |
| JsString.SplitManyParts | Chromium/options.js:175-176 | a split has two or more parts exactly when the separator occurs |
| JsString.SplitPartOccurs | Chromium/options.js:180-181 | every part of a split occurs in the split string |
| Rules.TextRules | Chromium/content_script.js:10 | the text rules are exactly the stored rules whose trigger has no `+` |
| Rules.HotkeyRules | Chromium/background.js:7 | the hotkey rules are exactly the stored rules whose trigger has a `+` |
| Rules.HotkeyRulesAppend | Chromium/background.js:7 | the hotkey filter keeps list order: it distributes over concatenation |
| Rules.TextRulesAppend | Mozilla/content_script.js:38 | filtering the text rules distributes over concatenation of rule lists |
| Rules.ClassificationPartition | Chromium/background.js:7 | text rules and hotkey rules together are the stored list as a multiset: each rule is in exactly one class |
| Rules.FindIndex | Mozilla/content_script.js:204 | `find` returns the first matching rule, and none when no rule matches |
| Rules.RemoveAt | Chromium/options.js:215 | `splice(index, 1)` removes exactly the entry at the normalised index and keeps the rest in order (prefix, suffix and multiset), or changes nothing past the end |
| Html.UnsafeAttrIff | Mozilla/content_script.js:24-26 | an attribute is removed iff its name starts with `on` or its lower-cased value contains `javascript:`; the separate `href` clause adds nothing |
| Html.FilterAttrs | Mozilla/content_script.js:22-29 | the kept attributes are exactly the safe ones, and a list with no unsafe attribute is unchanged |
| Html.Prune | Mozilla/content_script.js:16-17 | after removal no denylisted element remains at any depth, and a fragment without one is unchanged |
| Html.StripAttrs | Mozilla/content_script.js:20-30 | attribute removal leaves no unsafe attribute at any depth, keeps the node count, the text and the absence of denylisted elements, and changes nothing in a safe fragment |
| Html.Sanitize | Mozilla/content_script.js:8-33 | the sanitised fragment is clean, a clean fragment is unchanged, and its text is the text left after removing the denylisted elements |
| Html.SanitizeIdempotent | Mozilla/content_script.js:8-33 | sanitising twice is sanitising once |
| Html.SanitizeKeepsText | Mozilla/content_script.js:20-30 | without denylisted elements, sanitising does not change the text at all |
| Html.PruneText | Mozilla/content_script.js:16-17 | the text after removal is the text of the kept nodes: a denylisted element takes its whole subtree's text with it |
| Html.SanitizeKeepsSafeElement | Mozilla/content_script.js:16-30 | an element that is not denylisted stays, with its tag, exactly its safe attributes and sanitised children |
| Html.SanitizeDropsDenied | Mozilla/content_script.js:16-17 | a denylisted element disappears with its subtree and the rest is sanitised as if it were not there |
| Html.SanitizeExample | Mozilla/content_script.js:16-30 | `<img src="a.png" onerror="x()">` keeps its `src` and loses its handler; a `<script>` and its text are gone |
| Expansion.LocateSpan | Chromium/content_script.js:77-82 | the trigger span is found exactly when the text before the caret ends with the trigger, and then it is that suffix |
| Expansion.ExpandFlat | Chromium/content_script.js:74-106 | expansion succeeds iff the text before the caret ends with the trigger; then the trigger is replaced by the inserted text, the text after the caret is kept verbatim, and the caret sits right after the insertion |
| Expansion.ReplaceSelection | Chromium/content_script.js:161-176 | the selection is replaced by the inserted text, the text on both sides is kept, and the caret collapses right after the insertion |
| Expansion.EmptyTriggerInsertsAtCaret | Mozilla/content_script.js:213 | expanding with the empty trigger always succeeds and inserts at the selection start, keeping any selected text |
| Expansion.ExpandEditable | Chromium/content_script.js:31-72 | the node is split iff its text before the caret ends with the trigger; it becomes the text before the trigger, the inserted content and the text from the selection start on, and the caret lands right after the kept selected text (right after the content when nothing is selected) |
| Expansion.EmptyTriggerSplicesAtCaret | Mozilla/content_script.js:71-99 | with the empty trigger the contenteditable branch always succeeds, inserts at the selection start, keeps the selected text, and collapses the caret after it |
| ChromiumEngine.EditableInsert | Chromium/content_script.js:51-64 | a rich value is inserted as its parsed nodes, unsanitised, handlers included; a plain value as one text node; either way with the flat insertion's text |
| ChromiumEngine.SelectOnInput | Chromium/content_script.js:116-125 | nothing fires on an empty text; otherwise the first text rule whose trigger ends both the whole text and the text before the caret is chosen, and a rule that fails the second test does not stop the loop |
| ChromiumEngine.OnInputFlat | Chromium/content_script.js:112-125 | on an input or textarea, the chosen rule is the first one that fires, its expansion is the shared flat expansion, and nothing happens iff the text is empty or no rule fires |
| ChromiumEngine.OnInputEditable | Chromium/content_script.js:112-125 | the same choice on a contenteditable element, made on its whole text and its caret's text node, with the node split around the inserted nodes |
| ChromiumEngine.CaretAtEndSelectsFirstSuffix | Chromium/content_script.js:118-125 | with the caret at the end, a rule fires exactly when its trigger ends the text |
| ChromiumEngine.SignatureExample | Chromium/content_script.js:112-125 | typing "Hello /sig" with the caret at the end yields "Hello Best,\nAlice" with the caret at 17 |
| ChromiumEngine.SignatureExpansion | Chromium/content_script.js:95-99 | the flat expansion of that example, character by character |
| ChromiumEngine.NormalizeKey | Chromium/content_script.js:135-139 | modifier keys become `ctrl`, `alt`, `shift`, `meta`, and every other key is lower-cased |
| ChromiumEngine.KeyDown | Chromium/content_script.js:135-139 | a keydown adds the normalised key and nothing else |
| ChromiumEngine.KeyUp | Chromium/content_script.js:189-195 | a keyup removes the normalised key and nothing else |
| ChromiumEngine.KeyUpUndoesKeyDown | Chromium/content_script.js:189-195 | releasing a key that was not held before its press restores the previous key set |
| ChromiumEngine.KeyUpOfAbsentKey | Chromium/content_script.js:189-195 | releasing a key that is not held changes nothing |
| ChromiumEngine.KeyDownOfHeldKey | Chromium/content_script.js:135-139 | auto-repeat of a held key changes nothing |
| ChromiumEngine.FiringPartsAreHeld | Chromium/content_script.js:144 | when a hotkey fires, every one of its keys is held |
| ChromiumEngine.ExtraKeyBlocks | Chromium/content_script.js:147 | holding one more key than a firing hotkey names stops it from firing |
| ChromiumEngine.FiresIffExactlyHeld | Chromium/content_script.js:143-147 | for a hotkey with distinct parts, it fires exactly when the held keys are its keys, no more and no fewer |
| ChromiumEngine.OnKeyDown | Chromium/content_script.js:133-186 | the key set is updated; the first firing hotkey is used only when an editable element has focus; on an input it replaces the selection with the (text-reduced) value |
| ChromiumEngine.OnExpandRequest | Chromium/content_script.js:198-231 | a request without an editable element is refused with "No active editable element found."; on an input the selection is replaced by the value and collapses right after it |
| MozillaEngine.LooksRichIff | Mozilla/content_script.js:172 | a value is treated as rich text exactly when it contains both `<` and `>` |
| MozillaEngine.FlatInsert | Mozilla/content_script.js:117-125 | a plain value is inserted as is; a rich value loses its markup and exactly the text inside denylisted elements, since attribute stripping keeps all text |
| MozillaEngine.EditableInsert | Mozilla/content_script.js:79-94 | inserted nodes are always clean and carry the flat insertion's text; a rich value whose parse is already clean is inserted as that markup unchanged, a plain value as one text node |
| MozillaEngine.SelectTrigger | Mozilla/content_script.js:165-176 | the first text rule whose trigger ends the text before the caret, or none when no trigger does |
| MozillaEngine.OnInputFlat | Mozilla/content_script.js:140-176 | on an input or textarea, only text rules take part, the first matching one is expanded with the shared flat expansion, and nothing happens iff none matches |
| MozillaEngine.OnInputEditable | Mozilla/content_script.js:149-176 | the same on a contenteditable text node, with sanitised content spliced in |
| MozillaEngine.HeldModifiers | Mozilla/content_script.js:189-193 | exactly the held modifiers appear, in the fixed order Ctrl, Alt, Shift, Meta, so none twice |
| MozillaEngine.ModifierNamesHeld | Mozilla/content_script.js:189-193 | "Ctrl", "Alt", "Shift" and "Meta" appear in the list exactly when that flag is set, and no name repeats |
| MozillaEngine.ModifierNames | Mozilla/content_script.js:189-193 | the names follow the held modifiers one for one, and none contains the `+` separator |
| MozillaEngine.ComboStringSplits | Mozilla/content_script.js:189-201 | when the key is not `+`, the combination string splits back into the held modifiers in order, followed by the key unless it is a modifier key itself |
| MozillaEngine.OnKeyDownFlat | Mozilla/content_script.js:180-215 | the first hotkey equal to the combination ignoring case is inserted at the caret, keeping the selected text; nothing happens iff none matches |
| MozillaEngine.OnKeyDownEditable | Mozilla/content_script.js:180-215 | on a contenteditable text node the matching hotkey's clean content is spliced in at the selection start, the selected text is kept, and the caret lands after it |
| MozillaEngine.OnExpandRequest | Mozilla/content_script.js:224-239 | a request without an editable element is refused with "No suitable active element found"; otherwise the value is inserted at the selection start and the request succeeds, with the caret after the kept selected text |
| ChromiumOptions.ValidateHotkeyFormatIff | Chromium/options.js:173-184 | a hotkey is valid iff it has at least two `+`-parts and one of them is a modifier name ignoring case |
| ChromiumOptions.ValidHotkeyLooksLikeHotkey | Chromium/options.js:135-141 | every valid hotkey is also classified as a hotkey by the add handler |
| ChromiumOptions.TriggerAcceptedIff | Chromium/options.js:135-145 | a trigger is accepted iff it is a valid hotkey, or it starts with `/` and is not classified as a hotkey |
| ChromiumOptions.AddSnippet | Chromium/options.js:119-170 | empty trimmed fields are refused first; a trigger that looks like a hotkey but fails validation gets the hotkey error, any other refused trigger the `/` error; an accepted snippet is appended trimmed with the editor's rich-text mode |
| ChromiumOptions.DeleteSnippet | Chromium/options.js:212-224 | deleting removes exactly the entry at the index, and an index past the end changes nothing |
| ChromiumOptions.EditSnippet | Chromium/options.js:188-209 | editing loads the entry into the form and removes it from the list |
| ChromiumOptions.ValidateImport | Chromium/options.js:253 | an import is accepted iff it is an array whose every item has both a trigger and a value property, and it keeps the items in order |
| ChromiumOptions.MergeOne | Chromium/options.js:259-264 | one imported rule overwrites the first stored rule with its trigger, or is appended when its trigger is new |
| ChromiumOptions.MergeImport | Chromium/options.js:258-265 | the merge never shrinks the list, keeps every stored trigger in place, keeps stored rules whose trigger is not imported, and contains the last imported rule of each trigger |
| ChromiumOptions.MergeImportOverwrites | Chromium/options.js:258-265 | re-importing a stored trigger overwrites its first stored rule in place with the last imported rule of that trigger, and later stored duplicates are kept |
| ChromiumOptions.MergeImportAppendsOnce | Chromium/options.js:258-265 | appended rules carry only triggers that were not stored, and no trigger is appended twice |
| ChromiumOptions.ImportSnippets | Chromium/options.js:246-286 | an invalid file is refused with the list unchanged; otherwise the merge |
| MozillaOptions.Preview | Mozilla/options.js:61-62 | values of at most 50 characters are shown whole, longer ones as their first 50 characters and "..." |
| MozillaOptions.ReplaceFirstValue | Mozilla/options.js:117-120 | only the value of the first rule with the trigger changes; its trigger and flag stay |
| MozillaOptions.AddSnippet | Mozilla/options.js:98-136 | empty trimmed fields are refused; a duplicate trigger replaces the first duplicate's value only when confirmed; a new trigger is appended as plain text |
| MozillaOptions.EditSnippet | Mozilla/options.js:139-156 | editing an existing index loads it into the form and removes it; any other index changes nothing |
| MozillaOptions.DeleteSnippet | Mozilla/options.js:159-173 | nothing changes without confirmation; otherwise exactly the entry at the index is removed |
| MozillaOptions.ValidateImport | Mozilla/options.js:204-215 | a non-array, and only a non-array, is refused as not an array; an array with an item whose trigger or value is empty or missing is refused as incomplete; otherwise the items in order |
| MozillaOptions.TriggerSet | Mozilla/options.js:224 | the set holds exactly the triggers of the imported rules |
| MozillaOptions.KeepUnimported | Mozilla/options.js:225 | the kept rules are exactly the stored ones whose trigger is not imported |
| MozillaOptions.KeepUnimportedOne | Mozilla/options.js:225 | a single stored rule survives exactly when its trigger is not imported |
| MozillaOptions.KeepUnimportedAppend | Mozilla/options.js:225 | the filter distributes over concatenation, so the kept rules stay in their stored order |
| MozillaOptions.MergeImport | Mozilla/options.js:221-228 | the result is the stored rules whose trigger is not imported, as the filter keeps them, followed by all imported rules in order; no stored rule with an imported trigger survives |
| MozillaOptions.MergeImportKeepsOrder | Mozilla/options.js:224-228 | the surviving rules of an earlier part of the stored list come before everything merged from the rest |
| MozillaOptions.ImportSnippets | Mozilla/options.js:192-245 | the merge happens iff the file is valid and the user confirms; an invalid file keeps its refusal reason, and a valid one is cancelled exactly when not confirmed |
| Variants.TextChoiceAgreesAtEnd | Chromium/content_script.js:116-125 | with the caret at the end of a non-empty text, both variants choose the same text rule |
| Variants.CaretInsideTextDiffers | Chromium/content_script.js:119 | with the caret inside the text, Chromium can miss a trigger that Firefox expands |
| Variants.HotkeyInsertAgreesOnCollapsedSelection | Mozilla/content_script.js:212-213 | with no selected text and a plain value, both variants' hotkey insertion give the same field |
| Variants.HotkeyInsertDiffersOnSelection | Chromium/content_script.js:172-174 | with selected text, Chromium replaces it and Firefox keeps it |
| Variants.RichEditableInsertDiffers | Chromium/content_script.js:51-58 | a rich `<img onerror>` value enters a Chromium contenteditable with its handler, while Firefox inserts the same element without it |
| Variants.RichReductionDiffers | Mozilla/content_script.js:118-125 | the text of a `<script>` value reaches a Chromium input, while Firefox removes it |
| Variants.ChromiumMergeAppendsFresh | Chromium/options.js:258-265 | when the imported triggers are distinct and new, the Chromium merge appends them in order |
| Variants.MozillaMergeAppendsFresh | Mozilla/options.js:224-228 | when the imported triggers are distinct and new, the Firefox merge appends them in order |
| Variants.MergesAgreeOnFreshTriggers | Mozilla/options.js:224-228 | both merges agree whenever the imported triggers are distinct and new |
| Variants.MergesDifferOnReimport | Chromium/options.js:259-264 | re-importing a stored trigger keeps its position in Chromium and moves it to the end in Firefox |

## Left out

- The background scripts are not modelled. These are the service worker
  and its command and message routing. Only their hotkey filter is taken
  as `Rules.HotkeyRules`.
- Browser storage, `chrome.runtime` and `browser.runtime` messaging,
  `dispatchEvent`, and the reload and notification callbacks are left
  out. Each options operation returns the new list, which the source then
  stores.
- `alert` is an error value. `confirm` is a boolean parameter.
  `FileReader` and `JSON.parse` are replaced by an already-parsed
  `Payload`. A file that fails to parse is not modelled.
- Export, the options table rendering apart from the preview, and the
  rich-text editor toggle are left out. They produce output and do not
  change the list.
- HTML parsing and serialisation are a parameter.
  - Firefox's `sanitizeHTML` returns serialised HTML that is parsed
    again. The model assumes this round trip gives back the sanitised
    tree.
  - Comments and text are kept.
  - Attribute name case and entity decoding belong to the parser.
- The contenteditable paths in the Chromium hotkey handler and expansion
  request are not modelled. These use `document.execCommand`, so they only
  report that the element is editable.
- DOM `Range` placement is reduced to splitting the caret's text node.
  The input handlers assume that node is a text node.
  - A contenteditable caret outside a text node is not modelled. Firefox
    then tests an empty text.
  - A `selectionStart` of `null` is not modelled.
- `toLowerCase` is modelled on ASCII letters only. Other characters are
  left unchanged.
- `trim` uses the ECMAScript white-space and line-terminator set.
- A stored rule's trigger and value are strings. Imported items carry
  optional string fields. Other JSON types (numbers, nested objects) are
  not modelled.
- Chromium keeps imported objects as they are. The model keeps their
  trigger, value and rich-text flag.
- ChromiumEngine.FiresIffExactlyHeld: requires the hotkey's trimmed parts
  to be distinct. With a repeated part such as `Ctrl+Ctrl`, the size test
  counts the part twice, so the hotkey fires with Ctrl and any one other
  key held. `FiringPartsAreHeld` and `ExtraKeyBlocks` hold without that
  requirement.
- The two variants deliberately differ in several places:
  - Chromium inserts rich values without sanitising. Firefox sanitises.
  - Firefox's hotkey insertion keeps the selected text, and its
    combination string requires the modifiers in the fixed order Ctrl,
    Alt, Shift, Meta.
  - These are modelled as written. `Variants` states the differences.
- The Chromium content script never clears its pressed-key set when the
  page loses focus. Only keyup removes a key, so a keyup that never
  arrives leaves its key in the set.
- A contenteditable selection is taken to start and end in the caret's
  text node. A selection spanning several nodes is not modelled.
- ChromiumEngine.FlatInsert: the text is all the model keeps of a rich
  value, but every Chromium rich path assigns the unsanitised value to
  `innerHTML` of an element of the page document, even the paths that
  then keep only `textContent` (Chromium/content_script.js:53-54, 90-92,
  167-169, 218-220). So `<img src=x onerror=...>` runs its handler in the
  page even when only text is inserted. Parsing is a pure parameter, and
  this side effect is not modelled.
- Characters are Unicode scalar values, not UTF-16 code units.
  JavaScript's `length`, `substring` and selection offsets count code
  units, so lengths and carets agree only on text inside the Basic
  Multilingual Plane. For example, `MozillaOptions.Preview` shows a value
  of 30 emoji whole, while the options page counts 60 units and cuts it.
- ChromiumEngine.OnInputFlat: models one run of the input listener. The
  source's `dispatchEvent(new Event('input', ...))` after a flat expansion
  runs the same listener again, synchronously and before the `break`,
  because nothing checks `isTrusted`. The same holds for the hotkey and
  message paths. So an inserted value that ends with another rule's
  trigger is expanded again. With `/a` → `b/c` and `/c` → `d`, typing
  `/a` ends as `bd`. A value that ends with its own trigger recurses
  until the stack overflows. The model does not chain these runs.
- MozillaEngine.EditableInsert: cleanliness is proved of one parse only.
  The source sanitises a `DOMParser` document, which has scripting off.
  It then serialises the result and parses it again with `innerHTML` in
  the page, which has scripting on. A payload such as
  `<noscript><p title="</noscript><img src=x onerror=...>">` is clean
  after the first parse but yields an `onerror` image after the second.
  The model takes the two parses to agree.
- Mozilla/options.js:13-38 holds a second copy of `sanitizeHTML` that the
  options page never calls. It is the same as the content script's copy
  and is not modelled separately.

=== FILE: chromium_engine.dfy ===
/**
 * The Chromium content script: the input-event matcher over text triggers,
 * the pressed-key set with its hotkey matcher, and the flat insertion used
 * by hotkeys and by expansion requests from the background worker.
 */
module ChromiumEngine {
  import opened Wrappers
  import opened JsString
  import opened Rules
  import opened Html
  import opened Expansion

  /** The active element of the page as the handlers classify it. */
  datatype Active =
    | NoEditable
    | FlatActive(field: Field)  // an INPUT or TEXTAREA
    | EditableActive            // a contenteditable element, written through execCommand

  /**
   * The text a rule writes into an input or textarea: a rich value is
   * parsed and reduced to its text content, and nothing is sanitised.
   */
  function FlatInsert(value: string, isRichText: bool, parse: Parser): (s: string)
    ensures !isRichText ==> s == value
    ensures isRichText ==> s == TextContent(parse(value))
  {
    if isRichText then TextContent(parse(value)) else value
  }

  /**
   * What a rule inserts into a contenteditable region: for a rich rule the
   * parsed markup itself, attributes and handlers included, since nothing
   * is sanitised; for a plain rule one text node holding the value.
   */
  function EditableInsert(value: string, isRichText: bool, parse: Parser): (ns: seq<Node>)
    ensures isRichText ==> ns == parse(value)
    ensures !isRichText ==> ns == [Text(value)]
    ensures TextContent(ns) == FlatInsert(value, isRichText, parse)
  {
    if isRichText then parse(value)
    else
      var ns := [Text(value)];
      assert ns[1..] == [];
      ns
  }

  /**
   * The input listener's test for one text rule: the whole text of the
   * target ends with the trigger, and the expansion, which tests the text
   * before the caret, succeeds.
   */
  predicate InputFires(r: Rule, whole: string, before: string)
  {
    EndsWith(whole, r.trigger) && EndsWith(before, r.trigger)
  }

  /**
   * The loop of the input listener: no rule on empty text, otherwise the
   * first text rule in list order that fires; later rules are not tried.
   */
  function SelectOnInput(textRules: seq<Rule>, whole: string, before: string): (r: Option<nat>)
    ensures whole == [] ==> r.None?
    ensures r.Some? ==> r.value < |textRules| && InputFires(textRules[r.value], whole, before)
    ensures r.Some? ==> forall j | 0 <= j < r.value :: !InputFires(textRules[j], whole, before)
    ensures r.None? && whole != [] ==> forall j | 0 <= j < |textRules| :: !InputFires(textRules[j], whole, before)
  {
    if whole == [] then None
    else FindIndex(textRules, (x: Rule) => InputFires(x, whole, before))
  }

  /**
   * The input listener on an input or textarea: only text rules take part,
   * the chosen one is the first that fires, and the field becomes that
   * rule's flat expansion. At most one expansion happens per listener run.
   */
  function OnInputFlat(rules: seq<Rule>, f: Field, parse: Parser): (r: Option<Expanded<Field>>)
    requires ValidField(f)
    ensures var tr := TextRules(rules);
      r.Some? ==>
        && r.value.ruleIndex < |tr|
        && !IsHotkey(tr[r.value.ruleIndex])
        && InputFires(tr[r.value.ruleIndex], f.value, f.value[..f.selStart])
        && (forall j | 0 <= j < r.value.ruleIndex :: !InputFires(tr[j], f.value, f.value[..f.selStart]))
        && Some(r.value.surface) == ExpandFlat(f, tr[r.value.ruleIndex].trigger,
                                              FlatInsert(tr[r.value.ruleIndex].value, tr[r.value.ruleIndex].isRichText, parse))
    ensures r.None? <==> f.value == [] || forall j | 0 <= j < |TextRules(rules)| :: !InputFires(TextRules(rules)[j], f.value, f.value[..f.selStart])
  {
    var tr := TextRules(rules);
    match SelectOnInput(tr, f.value, f.value[..f.selStart])
    case None => None
    case Some(i) =>
      assert tr[i] in tr;
      var rule := tr[i];
      Some(Expanded(i, ExpandFlat(f, rule.trigger, FlatInsert(rule.value, rule.isRichText, parse)).value))
  }

  /**
   * The input listener on a contenteditable element: the whole text is the
   * element's text content, but the expansion works on the caret's text node.
   */
  function OnInputEditable(rules: seq<Rule>, whole: string, c: Caret, parse: Parser): (r: Option<Expanded<Splice>>)
    requires ValidCaret(c)
    ensures var tr := TextRules(rules);
      r.Some? ==>
        && r.value.ruleIndex < |tr|
        && InputFires(tr[r.value.ruleIndex], whole, c.text[..c.offset])
        && (forall j | 0 <= j < r.value.ruleIndex :: !InputFires(tr[j], whole, c.text[..c.offset]))
        && Some(r.value.surface) == ExpandEditable(c, tr[r.value.ruleIndex].trigger,
                                                  EditableInsert(tr[r.value.ruleIndex].value, tr[r.value.ruleIndex].isRichText, parse))
    ensures r.None? <==> whole == [] || forall j | 0 <= j < |TextRules(rules)| :: !InputFires(TextRules(rules)[j], whole, c.text[..c.offset])
  {
    var tr := TextRules(rules);
    match SelectOnInput(tr, whole, c.text[..c.offset])
    case None => None
    case Some(i) =>
      var rule := tr[i];
      Some(Expanded(i, ExpandEditable(c, rule.trigger, EditableInsert(rule.value, rule.isRichText, parse)).value))
  }

  /**
   * With the caret at the end of the field, the whole-text test and the
   * caret test coincide: the first text rule whose trigger ends the value wins.
   */
  lemma CaretAtEndSelectsFirstSuffix(textRules: seq<Rule>, value: string)
    ensures forall j | 0 <= j < |textRules| ::
      InputFires(textRules[j], value, value[..|value|]) <==> EndsWith(value, textRules[j].trigger)
  {
    assert value[..|value|] == value;
  }

  /**
   * The signature scenario: with the single rule "/sig" -> "Best,\nAlice",
   * typing "Hello /sig" with the caret at the end yields "Hello Best,\nAlice"
   * with the caret at the end.
   */
  lemma SignatureExample(parse: Parser)
    ensures OnInputFlat([Rule("/sig", "Best,\nAlice", false)], Field("Hello /sig", 10, 10), parse)
         == Some(Expanded(0, Field("Hello Best,\nAlice", 17, 17)))
  {
    var rules := [Rule("/sig", "Best,\nAlice", false)];
    var f := Field("Hello /sig", 10, 10);
    assert TextRules(rules) == rules by {
      assert !IsHotkey(rules[0]);
    }
    assert f.value[..10] == f.value;
    assert f.value[6..] == "/sig";
    assert InputFires(rules[0], f.value, f.value[..f.selStart]);
    assert SelectOnInput(rules, f.value, f.value[..10]) == Some(0);
    SignatureExpansion();
  }

  /** The flat expansion behind the signature scenario. */
  lemma SignatureExpansion()
    ensures ExpandFlat(Field("Hello /sig", 10, 10), "/sig", "Best,\nAlice") == Some(Field("Hello Best,\nAlice", 17, 17))
  {
    var v := "Hello /sig";
    assert v[..10] == v;
    assert v[6..] == "/sig";
    assert LocateSpan(v, "/sig") == Some(Span(6, 10));
    assert v[..6] == "Hello ";
    assert v[10..] == [];
    assert "Hello " + "Best,\nAlice" + [] == "Hello Best,\nAlice";
  }

  /**
   * The token a key event's `key` is recorded as: the four modifiers map to
   * their short names, every other key is lower-cased. Tokens are lower case.
   */
  function NormalizeKey(key: string): (k: string)
    ensures Lower(k) == k
    ensures key == "Control" ==> k == "ctrl"
    ensures key == "Alt" ==> k == "alt"
    ensures key == "Shift" ==> k == "shift"
    ensures key == "Meta" ==> k == "meta"
    ensures key !in {"Control", "Alt", "Shift", "Meta"} ==> k == Lower(key)
  {
    if key == "Control" then "ctrl"
    else if key == "Alt" then "alt"
    else if key == "Shift" then "shift"
    else if key == "Meta" then "meta"
    else
      LowerIdempotent(key);
      Lower(key)
  }

  /** The keydown listener's update: the key's token joins the set. */
  function KeyDown(pressed: set<string>, key: string): (s: set<string>)
    ensures NormalizeKey(key) in s
    ensures pressed <= s && |s| <= |pressed| + 1
  {
    pressed + {NormalizeKey(key)}
  }

  /** The keyup listener's update: the key's token leaves the set, if it was there. */
  function KeyUp(pressed: set<string>, key: string): (s: set<string>)
    ensures NormalizeKey(key) !in s
    ensures s <= pressed && |pressed| <= |s| + 1
  {
    pressed - {NormalizeKey(key)}
  }

  /** Releasing a key that was not held before it was pressed restores the set. */
  lemma KeyUpUndoesKeyDown(pressed: set<string>, key: string)
    requires NormalizeKey(key) !in pressed
    ensures KeyUp(KeyDown(pressed, key), key) == pressed
  {
  }

  /** A keyup for a key that is not in the set changes nothing. */
  lemma KeyUpOfAbsentKey(pressed: set<string>, key: string)
    requires NormalizeKey(key) !in pressed
    ensures KeyUp(pressed, key) == pressed
  {
  }

  /** A repeated keydown for a held key (auto-repeat) changes nothing. */
  lemma KeyDownOfHeldKey(pressed: set<string>, key: string)
    requires NormalizeKey(key) in pressed
    ensures KeyDown(pressed, key) == pressed
  {
  }

  /** The parts of a hotkey trigger as the keydown listener splits them: lower-cased, split on '+'. */
  function HotkeyParts(trigger: string): (parts: seq<string>)
    ensures |parts| >= 1
  {
    Split(Lower(trigger), HotkeySeparator)
  }

  /** Each part trimmed, as the keydown listener looks it up (`part.trim()`). */
  function TrimAll(parts: seq<string>): (q: seq<string>)
    ensures |q| == |parts|
    ensures forall i | 0 <= i < |parts| :: q[i] == Trim(parts[i])
  {
    seq(|parts|, i requires 0 <= i < |parts| => Trim(parts[i]))
  }

  /** The keys a hotkey names, as looked up in the pressed-key set. */
  function HotkeyKeys(trigger: string): (q: seq<string>)
    ensures |q| == |HotkeyParts(trigger)|
  {
    TrimAll(HotkeyParts(trigger))
  }

  /** The distinct keys a hotkey names. */
  function PartSet(trigger: string): set<string>
  {
    var q := HotkeyKeys(trigger);
    set i | 0 <= i < |q| :: q[i]
  }

  /**
   * The keydown listener's test for one hotkey: every trimmed part is held
   * and the number of held keys equals the number of parts.
   */
  predicate HotkeyFires(trigger: string, pressed: set<string>)
  {
    var q := HotkeyKeys(trigger);
    (forall i | 0 <= i < |q| :: q[i] in pressed) && |pressed| == |q|
  }

  /** The trimmed parts of a hotkey are pairwise different. */
  predicate DistinctParts(trigger: string)
  {
    var q := HotkeyKeys(trigger);
    forall i, j | 0 <= i < j < |q| :: q[i] != q[j]
  }

  /** A hotkey that fires names only held keys. */
  lemma FiringPartsAreHeld(trigger: string, pressed: set<string>)
    requires HotkeyFires(trigger, pressed)
    ensures PartSet(trigger) <= pressed
  {
  }

  /** Holding one more key than a firing combination blocks the match. */
  lemma ExtraKeyBlocks(trigger: string, pressed: set<string>, extra: string)
    requires HotkeyFires(trigger, pressed)
    requires extra !in pressed
    ensures !HotkeyFires(trigger, pressed + {extra})
  {
    assert |pressed + {extra}| == |pressed| + 1;
  }

  /** The set of a sequence of pairwise different strings has as many elements as the sequence. */
  lemma {:induction false} DistinctCard(q: seq<string>)
    requires forall i, j | 0 <= i < j < |q| :: q[i] != q[j]
    ensures |set i | 0 <= i < |q| :: q[i]| == |q|
  {
    if q != [] {
      var tail := q[1..];
      DistinctCard(tail);
      var s := set i | 0 <= i < |q| :: q[i];
      var t := set i | 0 <= i < |tail| :: tail[i];
      assert s == t + {q[0]} by {
        forall x | x in s ensures x in t + {q[0]} {
          var i :| 0 <= i < |q| && q[i] == x;
          if i > 0 { assert tail[i - 1] == x; }
        }
        forall x | x in t ensures x in s {
          var i :| 0 <= i < |tail| && tail[i] == x;
          assert q[i + 1] == x;
        }
      }
      assert q[0] !in t by {
        forall i | 0 <= i < |tail| ensures tail[i] != q[0] {
          assert tail[i] == q[i + 1];
        }
      }
    }
  }

  /** A subset as large as its superset is the whole superset. */
  lemma SubsetSameSize(a: set<string>, b: set<string>)
    requires a <= b && |a| == |b|
    ensures a == b
  {
    assert b == a + (b - a);
    assert |b - a| == 0;
  }

  /**
   * For a hotkey whose parts are pairwise different, the keydown test is
   * exact set equality: it fires iff the held keys are exactly its parts.
   */
  lemma FiresIffExactlyHeld(trigger: string, pressed: set<string>)
    requires DistinctParts(trigger)
    ensures HotkeyFires(trigger, pressed) <==> pressed == PartSet(trigger)
  {
    var q := HotkeyKeys(trigger);
    DistinctCard(q);
    assert |PartSet(trigger)| == |q|;
    if HotkeyFires(trigger, pressed) {
      FiringPartsAreHeld(trigger, pressed);
      SubsetSameSize(PartSet(trigger), pressed);
    }
    if pressed == PartSet(trigger) {
      forall i | 0 <= i < |q| ensures q[i] in pressed {
        assert q[i] in PartSet(trigger);
      }
    }
  }

  /** The keydown listener's result: the updated set and the hotkey it expanded, if any. */
  datatype KeyDownResult = KeyDownResult(pressed: set<string>, fired: Option<nat>, field: Option<Field>)

  /**
   * The keydown listener: record the key, then take the first hotkey that
   * fires, provided an editable element has focus (otherwise no hotkey is
   * used and the default action is kept). In an input or textarea the
   * rule's text replaces the selection.
   */
  function OnKeyDown(hotkeys: seq<Rule>, pressed: set<string>, key: string, active: Active, parse: Parser): (r: KeyDownResult)
    requires active.FlatActive? ==> ValidField(active.field)
    ensures r.pressed == KeyDown(pressed, key)
    ensures active.NoEditable? ==> r.fired.None?
    ensures r.fired.Some? ==>
      && r.fired.value < |hotkeys|
      && HotkeyFires(hotkeys[r.fired.value].trigger, r.pressed)
      && forall j | 0 <= j < r.fired.value :: !HotkeyFires(hotkeys[j].trigger, r.pressed)
    ensures !active.NoEditable? && r.fired.None? ==> forall j | 0 <= j < |hotkeys| :: !HotkeyFires(hotkeys[j].trigger, r.pressed)
    ensures r.field.Some? <==> active.FlatActive? && r.fired.Some?
    ensures r.field.Some? ==>
      var rule := hotkeys[r.fired.value];
      r.field.value == ReplaceSelection(active.field, FlatInsert(rule.value, rule.isRichText, parse))
  {
    var now := KeyDown(pressed, key);
    if active.NoEditable? then KeyDownResult(now, None, None)
    else
      var fired := FindIndex(hotkeys, (x: Rule) => HotkeyFires(x.trigger, now));
      var field := match (active, fired)
        case (FlatActive(f), Some(i)) =>
          Some(ReplaceSelection(f, FlatInsert(hotkeys[i].value, hotkeys[i].isRichText, parse)))
        case _ => None;
      KeyDownResult(now, fired, field)
  }

  /** The message listener's reply to an expansion request. */
  const NoEditableMessage: string := "No active editable element found."

  /**
   * An `EXPAND_HOTKEY_SNIPPET` request: refused when no editable element has
   * focus; in an input or textarea the value replaces the selection.
   */
  function OnExpandRequest(active: Active, value: string, isRichText: bool, parse: Parser): (r: Result<Option<Field>, string>)
    requires active.FlatActive? ==> ValidField(active.field)
    ensures r.Err? <==> active.NoEditable?
    ensures r.Err? ==> r.error == NoEditableMessage
    ensures r.Ok? ==> (r.value.Some? <==> active.FlatActive?)
    ensures r.Ok? && r.value.Some? ==>
      var ins := FlatInsert(value, isRichText, parse);
      && ValidField(r.value.value)
      && r.value.value.selStart == r.value.value.selEnd == active.field.selStart + |ins|
      && r.value.value.value[..r.value.value.selStart] == active.field.value[..active.field.selStart] + ins
      && r.value.value.value[r.value.value.selStart..] == active.field.value[active.field.selEnd..]
  {
    match active
    case NoEditable => Err(NoEditableMessage)
    case EditableActive => Ok(None)
    case FlatActive(f) => Ok(Some(ReplaceSelection(f, FlatInsert(value, isRichText, parse))))
  }
}

=== FILE: chromium_options.dfy ===
/**
 * The Chromium options page, minus its rendering: hotkey-format
 * validation, acceptance and classification of a new snippet, deletion,
 * editing, and the import check with its in-place merge.
 */
module ChromiumOptions {
  import opened Wrappers
  import opened JsString
  import opened Rules

  /** The modifier names `validateHotkeyFormat` recognises (compared lower-cased). */
  const Modifiers: set<string> := {"ctrl", "alt", "shift", "meta"}

  /**
   * `validateHotkeyFormat`: splitting on '+' gives at least two parts and
   * some part, lower-cased, is a modifier name. Parts are not trimmed.
   */
  predicate ValidateHotkeyFormat(hotkey: string)
  {
    var parts := Split(hotkey, HotkeySeparator);
    |parts| >= 2 && exists i | 0 <= i < |parts| :: Lower(parts[i]) in Modifiers
  }

  /** A valid hotkey contains '+' and has a part that is a modifier name ignoring case, and conversely. */
  lemma ValidateHotkeyFormatIff(hotkey: string)
    ensures ValidateHotkeyFormat(hotkey) <==>
      HotkeySeparator in hotkey
      && exists i | 0 <= i < |Split(hotkey, HotkeySeparator)| :: Lower(Split(hotkey, HotkeySeparator)[i]) in Modifiers
  {
    SplitManyParts(hotkey, HotkeySeparator);
  }

  /**
   * The add handler's hotkey test: the trigger contains '+' and, lower-cased,
   * contains one of the modifier names anywhere.
   */
  predicate LooksLikeHotkey(trigger: string)
  {
    && HotkeySeparator in trigger
    && (|| Includes(Lower(trigger), "ctrl") || Includes(Lower(trigger), "alt")
        || Includes(Lower(trigger), "shift") || Includes(Lower(trigger), "meta"))
  }

  /** The add handler's trigger rule: a hotkey-looking trigger must validate, any other must start with '/'. */
  predicate TriggerAccepted(trigger: string)
  {
    if LooksLikeHotkey(trigger) then ValidateHotkeyFormat(trigger) else StartsWith(trigger, "/")
  }

  /** Every valid hotkey passes the hotkey test, so validation is never bypassed for it. */
  lemma {:induction false} ValidHotkeyLooksLikeHotkey(trigger: string)
    requires ValidateHotkeyFormat(trigger)
    ensures LooksLikeHotkey(trigger)
  {
    var parts := Split(trigger, HotkeySeparator);
    SplitManyParts(trigger, HotkeySeparator);
    var i :| 0 <= i < |parts| && Lower(parts[i]) in Modifiers;
    SplitPartOccurs(trigger, HotkeySeparator, i);
    var k :| 0 <= k <= |trigger| - |parts[i]| && OccursAt(trigger, parts[i], k);
    LowerOccurs(trigger, parts[i], k);
    assert OccursAt(Lower(trigger), Lower(parts[i]), k);
  }

  /**
   * The acceptance rule restated: a trigger is accepted iff it is a valid
   * hotkey, or it does not look like a hotkey and starts with '/'.
   */
  lemma TriggerAcceptedIff(trigger: string)
    ensures TriggerAccepted(trigger) <==>
      ValidateHotkeyFormat(trigger) || (!LooksLikeHotkey(trigger) && StartsWith(trigger, "/"))
  {
    if ValidateHotkeyFormat(trigger) {
      ValidHotkeyLooksLikeHotkey(trigger);
    }
  }

  /** Why the add handler refused a snippet. */
  datatype AddError = MissingField | InvalidHotkey | MissingSlash

  /**
   * The add handler: both trimmed inputs must be non-empty and the trigger
   * accepted. A trigger that looks like a hotkey but fails validation gets
   * the hotkey-format alert, any other refused trigger the '/' alert. An
   * accepted snippet is appended with `isRichText` set to the
   * current editing mode, and every existing snippet is kept as it was.
   */
  function AddSnippet(rules: seq<Rule>, triggerInput: string, valueInput: string, richMode: bool): (r: Result<seq<Rule>, AddError>)
    ensures (r.Err? && r.error == MissingField) <==> Trim(triggerInput) == [] || Trim(valueInput) == []
    ensures r.Ok? <==> Trim(triggerInput) != [] && Trim(valueInput) != [] && TriggerAccepted(Trim(triggerInput))
    ensures r.Err? && r.error == InvalidHotkey ==> LooksLikeHotkey(Trim(triggerInput))
    ensures r.Err? && r.error == MissingSlash ==> !StartsWith(Trim(triggerInput), "/")
    ensures (r.Err? && r.error == InvalidHotkey) <==>
      Trim(triggerInput) != [] && Trim(valueInput) != []
      && LooksLikeHotkey(Trim(triggerInput)) && !ValidateHotkeyFormat(Trim(triggerInput))
    ensures (r.Err? && r.error == MissingSlash) <==>
      Trim(triggerInput) != [] && Trim(valueInput) != []
      && !LooksLikeHotkey(Trim(triggerInput)) && !StartsWith(Trim(triggerInput), "/")
    ensures r.Ok? ==>
      && |r.value| == |rules| + 1
      && r.value[..|rules|] == rules
      && r.value[|rules|] == Rule(Trim(triggerInput), Trim(valueInput), richMode)
  {
    var trigger := Trim(triggerInput);
    var value := Trim(valueInput);
    if trigger == [] || value == [] then Err(MissingField)
    else if LooksLikeHotkey(trigger) && !ValidateHotkeyFormat(trigger) then Err(InvalidHotkey)
    else if !LooksLikeHotkey(trigger) && !StartsWith(trigger, "/") then Err(MissingSlash)
    else
      var r := rules + [Rule(trigger, value, richMode)];
      assert r[..|rules|] == rules;
      Ok(r)
  }

  /**
   * `deleteSnippet`: `splice(index, 1)` removes exactly the entry at the
   * index and keeps the others in order; an index past the end changes nothing.
   */
  function DeleteSnippet(rules: seq<Rule>, index: int): (r: seq<Rule>)
    ensures 0 <= index < |rules| ==> |r| == |rules| - 1 && r == rules[..index] + rules[index + 1..]
    ensures index >= |rules| ==> r == rules
  {
    var r := RemoveAt(rules, index);
    if 0 <= index < |rules| then
      assert r == r[..index] + r[index..];
      r
    else r
  }

  /**
   * `editSnippet`: the entry at the index is loaded into the form (its
   * `isRichText` selects the editing mode) and removed from the list. For an
   * index with no entry, reading its trigger throws and nothing changes.
   */
  function EditSnippet(rules: seq<Rule>, index: int): (r: EditOutcome)
    ensures 0 <= index < |rules| ==> r.form == Some(rules[index]) && r.rules == rules[..index] + rules[index + 1..]
    ensures !(0 <= index < |rules|) ==> r.form.None? && r.rules == rules
  {
    if 0 <= index < |rules| then EditOutcome(DeleteSnippet(rules, index), Some(rules[index]))
    else EditOutcome(rules, None)
  }

  /**
   * The import check, `s.hasOwnProperty('trigger') && s.hasOwnProperty('value')`
   * on every element: accepted only when the payload is an array whose every
   * element is an object with both fields (an empty one is allowed).
   */
  function ValidateImport(p: Payload): (r: Option<seq<Rule>>)
    ensures r.Some? <==> p.Array? && forall i | 0 <= i < |p.items| :: HasFields(p.items[i])
    ensures r.Some? ==> |r.value| == |p.items| && forall i | 0 <= i < |p.items| :: r.value[i] == ItemRule(p.items[i])
  {
    if p.Array? && forall i | 0 <= i < |p.items| :: HasFields(p.items[i]) then Some(ItemRules(p.items))
    else None
  }

  /**
   * One step of the merge: the imported rule overwrites the first existing
   * rule with the same trigger, or is appended when there is none. Every
   * other position keeps its rule, and no position changes its trigger.
   */
  function MergeOne(current: seq<Rule>, imp: Rule): (r: seq<Rule>)
    ensures |r| == |current| + (if HasTrigger(current, imp.trigger) then 0 else 1)
    ensures imp in r
    ensures !HasTrigger(current, imp.trigger) ==> r == current + [imp]
    ensures forall i | 0 <= i < |current| :: r[i].trigger == current[i].trigger
    ensures forall i | 0 <= i < |current| :: r[i] == current[i] || r[i] == imp
    ensures forall i | 0 <= i < |current| && current[i].trigger != imp.trigger :: r[i] == current[i]
    ensures forall i | 0 <= i < |current| && current[i].trigger == imp.trigger ::
      r[i] == (if forall j | 0 <= j < i :: current[j].trigger != imp.trigger then imp else current[i])
  {
    match FindIndex(current, (x: Rule) => x.trigger == imp.trigger)
    case Some(k) =>
      var r := current[k := imp];
      assert r[k] == imp;
      r
    case None => current + [imp]
  }

  /** The imported rule at `j` is the last one with its trigger. */
  predicate LastOfTrigger(imported: seq<Rule>, j: int)
    requires 0 <= j < |imported|
  {
    forall k | j < k < |imported| :: imported[k].trigger != imported[j].trigger
  }

  /** A stored trigger absent from the imports is absent from their tail and differs from their head. */
  lemma NotImportedTail(imported: seq<Rule>, t: string)
    requires imported != [] && !HasTrigger(imported, t)
    ensures !HasTrigger(imported[1..], t) && imported[0].trigger != t
  {
    forall k | 0 <= k < |imported[1..]| ensures imported[1..][k].trigger != t {
      assert imported[1..][k] == imported[k + 1];
    }
  }

  /** The last rule of a trigger stays the last one in the tail of the imports. */
  lemma LastOfTriggerTail(imported: seq<Rule>, j: int)
    requires 0 <= j < |imported| && LastOfTrigger(imported, j)
    ensures j == 0 ==> !HasTrigger(imported[1..], imported[0].trigger)
    ensures j > 0 ==> imported[j] == imported[1..][j - 1] && LastOfTrigger(imported[1..], j - 1)
  {
    var rest := imported[1..];
    forall k | 0 <= k < |rest| ensures rest[k] == imported[k + 1] { }
    if j == 0 {
      forall k | 0 <= k < |rest| ensures rest[k].trigger != imported[0].trigger {
        assert rest[k] == imported[k + 1];
      }
    }
  }

  /**
   * The import merge, one imported rule after another. The list never
   * shrinks; every existing position keeps its trigger, and keeps its rule
   * unless that trigger is imported; new positions hold imported rules; and
   * the last imported rule with each trigger is in the result.
   */
  function MergeImport(current: seq<Rule>, imported: seq<Rule>): (r: seq<Rule>)
    ensures |current| <= |r| <= |current| + |imported|
    ensures forall i | 0 <= i < |current| :: r[i].trigger == current[i].trigger
    ensures forall i | 0 <= i < |current| && !HasTrigger(imported, current[i].trigger) :: r[i] == current[i]
    ensures forall i | 0 <= i < |current| :: r[i] == current[i] || r[i] in imported
    ensures forall i | |current| <= i < |r| :: r[i] in imported
    ensures forall j | 0 <= j < |imported| && LastOfTrigger(imported, j) :: imported[j] in r
    decreases |imported|
  {
    if imported == [] then current
    else
      var next := MergeOne(current, imported[0]);
      var r := MergeImport(next, imported[1..]);
      forall i | 0 <= i < |current| && !HasTrigger(imported, current[i].trigger) ensures r[i] == current[i] {
        NotImportedTail(imported, current[i].trigger);
      }
      assert forall x | x in imported[1..] :: x in imported;
      forall j | 0 <= j < |imported| && LastOfTrigger(imported, j) ensures imported[j] in r {
        LastOfTriggerTail(imported, j);
        if j == 0 {
          var p :| 0 <= p < |next| && next[p] == imported[0];
          assert r[p] == next[p];
        }
      }
      r
  }

  /** The stored rule at `i` is the first one with its trigger, the one `findIndex` finds. */
  predicate FirstOfTrigger(current: seq<Rule>, i: int)
    requires 0 <= i < |current|
  {
    forall p | 0 <= p < i :: current[p].trigger != current[i].trigger
  }

  /**
   * Re-importing overwrites in place: the first stored rule with an
   * imported trigger is replaced by the last imported rule with that
   * trigger, and a later stored rule with the same trigger is kept.
   */
  lemma {:induction false} MergeImportOverwrites(current: seq<Rule>, imported: seq<Rule>)
    ensures var r := MergeImport(current, imported);
      forall i, j | 0 <= i < |current| && 0 <= j < |imported| && FirstOfTrigger(current, i)
                    && LastOfTrigger(imported, j) && imported[j].trigger == current[i].trigger :: r[i] == imported[j]
    ensures var r := MergeImport(current, imported);
      forall i | 0 <= i < |current| && !FirstOfTrigger(current, i) :: r[i] == current[i]
    decreases |imported|
  {
    if imported != [] {
      var imp := imported[0];
      var rest := imported[1..];
      var next := MergeOne(current, imp);
      var r := MergeImport(current, imported);
      assert r == MergeImport(next, rest);
      MergeImportOverwrites(next, rest);
      forall i | 0 <= i < |current| ensures FirstOfTrigger(next, i) <==> FirstOfTrigger(current, i) {
      }
      forall i, j | 0 <= i < |current| && 0 <= j < |imported| && FirstOfTrigger(current, i)
                    && LastOfTrigger(imported, j) && imported[j].trigger == current[i].trigger
        ensures r[i] == imported[j]
      {
        LastOfTriggerTail(imported, j);
        if j == 0 {
          assert next[i] == imp;
        } else {
          assert FirstOfTrigger(next, i);
        }
      }
      forall i | 0 <= i < |current| && !FirstOfTrigger(current, i) ensures r[i] == current[i] {
        assert !FirstOfTrigger(next, i);
      }
    }
  }

  /**
   * Re-importing never duplicates: the appended rules carry triggers that
   * were not stored, and no trigger is appended twice.
   */
  lemma {:induction false} MergeImportAppendsOnce(current: seq<Rule>, imported: seq<Rule>)
    ensures var r := MergeImport(current, imported);
      forall i | |current| <= i < |r| :: !HasTrigger(current, r[i].trigger)
    ensures var r := MergeImport(current, imported);
      forall i, k | |current| <= i < k < |r| :: r[i].trigger != r[k].trigger
    decreases |imported|
  {
    if imported != [] {
      var imp := imported[0];
      var rest := imported[1..];
      var next := MergeOne(current, imp);
      var r := MergeImport(current, imported);
      assert r == MergeImport(next, rest);
      MergeImportAppendsOnce(next, rest);
      forall i | |current| <= i < |r| ensures !HasTrigger(current, r[i].trigger) {
        if i >= |next| {
          assert !HasTrigger(next, r[i].trigger);
          forall p | 0 <= p < |current| ensures current[p].trigger != r[i].trigger {
            assert next[p].trigger == current[p].trigger;
          }
        } else {
          assert next == current + [imp] && next[i] == imp;
        }
      }
      forall i, k | |current| <= i < k < |r| ensures r[i].trigger != r[k].trigger {
        if i < |next| {
          assert next[i].trigger == r[i].trigger;
          assert !HasTrigger(next, r[k].trigger);
        }
      }
    }
  }

  /** Why an import was refused. */
  datatype ImportError = InvalidFormat

  /**
   * The import handler: a payload that fails the check is refused and
   * changes nothing; otherwise its rules are merged into the stored list.
   */
  function ImportSnippets(current: seq<Rule>, p: Payload): (r: Result<seq<Rule>, ImportError>)
    ensures r.Ok? <==> ValidateImport(p).Some?
    ensures r.Ok? ==> r.value == MergeImport(current, ValidateImport(p).value)
  {
    match ValidateImport(p)
    case None => Err(InvalidFormat)
    case Some(imported) => Ok(MergeImport(current, imported))
  }
}

=== FILE: expansion.dfy ===
/**
 * The span arithmetic of `expandSnippet`, shared by both variants: find the
 * trigger directly before the caret, remove it, insert the expansion, and
 * put the caret right after what was inserted.
 */
module Expansion {
  import opened Wrappers
  import opened JsString
  import opened Html

  /** The parser behind `innerHTML = value`, which this model takes as given. */
  type Parser = string -> seq<Node>

  /** Which rule an event expanded, and the surface afterwards. */
  datatype Expanded<S> = Expanded(ruleIndex: nat, surface: S)

  /**
   * An input or textarea: its value and its selection [selStart, selEnd).
   * The browser keeps 0 <= selStart <= selEnd <= |value|.
   */
  datatype Field = Field(value: string, selStart: nat, selEnd: nat)

  predicate ValidField(f: Field)
  {
    f.selStart <= f.selEnd <= |f.value|
  }

  /**
   * The caret's text node inside a contenteditable region: its text and the
   * selection [offset, selEnd) in it; `offset` is the range's start offset.
   */
  datatype Caret = Caret(text: string, offset: nat, selEnd: nat)

  predicate ValidCaret(c: Caret)
  {
    c.offset <= c.selEnd <= |c.text|
  }

  /** The characters [start, end) of the text before the caret that the trigger occupies. */
  datatype Span = Span(start: nat, end: nat)

  /**
   * The test both branches of `expandSnippet` apply to the text before the
   * caret: the last occurrence of the trigger, accepted only when that text
   * ends with the trigger. The span found is the suffix itself.
   */
  function LocateSpan(before: string, trigger: string): (r: Option<Span>)
    ensures r.Some? <==> EndsWith(before, trigger)
    ensures r.Some? ==> r.value.end == |before| && r.value.start + |trigger| == |before|
  {
    var idx := LastIndexOf(before, trigger);
    if idx != -1 && EndsWith(before, trigger) then
      LastIndexOfSuffix(before, trigger);
      Some(Span(idx, |before|))
    else None
  }

  /**
   * The input/textarea branch of `expandSnippet`, writing `insert` in place
   * of the trigger. It succeeds exactly when the text before the caret ends
   * with the trigger; the text before the new caret is the old text before
   * the trigger followed by `insert`, the text after the caret is kept
   * verbatim, and the selection collapses to the new caret.
   */
  function ExpandFlat(f: Field, trigger: string, insert: string): (r: Option<Field>)
    requires ValidField(f)
    ensures r.Some? <==> EndsWith(f.value[..f.selStart], trigger)
    ensures r.Some? ==>
      var start := f.selStart - |trigger|;
      && ValidField(r.value)
      && r.value.selStart == r.value.selEnd == start + |insert|
      && r.value.value[..r.value.selStart] == f.value[..start] + insert
      && r.value.value[r.value.selStart..] == f.value[f.selStart..]
  {
    var before := f.value[..f.selStart];
    match LocateSpan(before, trigger)
    case None => None
    case Some(span) =>
      var after := f.value[f.selStart..];
      var v := before[..span.start] + insert + after;
      var caret := span.start + |insert|;
      assert v[..caret] == before[..span.start] + insert;
      assert v[caret..] == after;
      Some(Field(v, caret, caret))
  }

  /**
   * Replacing the selection of an input or textarea with `insert` (the
   * Chromium hotkey and message paths): the text before the selection and
   * the text after it are kept, and the caret lands right after `insert`.
   */
  function ReplaceSelection(f: Field, insert: string): (r: Field)
    requires ValidField(f)
    ensures ValidField(r)
    ensures r.selStart == r.selEnd == f.selStart + |insert|
    ensures r.value[..r.selStart] == f.value[..f.selStart] + insert
    ensures r.value[r.selStart..] == f.value[f.selEnd..]
  {
    var v := f.value[..f.selStart] + insert + f.value[f.selEnd..];
    var caret := f.selStart + |insert|;
    assert v[..caret] == f.value[..f.selStart] + insert;
    assert v[caret..] == f.value[f.selEnd..];
    Field(v, caret, caret)
  }

  /**
   * With an empty trigger the flat expansion always succeeds and inserts at
   * the caret: the old text before and after the caret are both kept, the
   * new caret is the old one plus |insert|, and the effect is that of
   * replacing the collapsed selection [selStart, selStart).
   */
  lemma EmptyTriggerInsertsAtCaret(f: Field, insert: string)
    requires ValidField(f)
    ensures ExpandFlat(f, [], insert).Some?
    ensures ExpandFlat(f, [], insert).value == ReplaceSelection(f.(selEnd := f.selStart), insert)
    ensures ExpandFlat(f, [], insert).value.value == f.value[..f.selStart] + insert + f.value[f.selStart..]
  {
    var r := ExpandFlat(f, [], insert).value;
    var g := ReplaceSelection(f.(selEnd := f.selStart), insert);
    assert r.value == r.value[..r.selStart] + r.value[r.selStart..];
    assert g.value == g.value[..g.selStart] + g.value[g.selStart..];
  }

  /**
   * The result of the contenteditable branch: the caret's text node is
   * split, the trigger removed and the content inserted, so that node is
   * replaced by `nodes`. The caret sits after the first `caretIndex` of
   * them and `caretOffset` characters into the next one.
   */
  datatype Splice = Splice(nodes: seq<Node>, caretIndex: nat, caretOffset: nat)

  /**
   * The contenteditable branch of `expandSnippet` on the caret's text node:
   * the same suffix test as the flat branch; on success the node becomes
   * the text before the trigger, then the inserted content, then the text
   * from the range's start on. The live range keeps any selected text in
   * that last node, so collapsing it to its end puts the caret right after
   * the content when nothing was selected, and right after the selected
   * text otherwise.
   */
  function ExpandEditable(c: Caret, trigger: string, content: seq<Node>): (r: Option<Splice>)
    requires ValidCaret(c)
    ensures r.Some? <==> EndsWith(c.text[..c.offset], trigger)
    ensures r.Some? ==>
      var start := c.offset - |trigger|;
      && r.value.caretIndex < |r.value.nodes|
      && r.value.nodes[..r.value.caretIndex] == [Text(c.text[..start])] + content
      && r.value.nodes[r.value.caretIndex..] == [Text(c.text[c.offset..])]
      && r.value.caretOffset <= |c.text[c.offset..]|
      && c.text[c.offset..][..r.value.caretOffset] == c.text[c.offset..c.selEnd]
      && TextContent(r.value.nodes) == c.text[..start] + TextContent(content) + c.text[c.offset..]
  {
    var before := c.text[..c.offset];
    match LocateSpan(before, trigger)
    case None => None
    case Some(span) =>
      var head := [Text(before[..span.start])];
      var tail := [Text(c.text[c.offset..])];
      var nodes := head + content + tail;
      var k := 1 + |content|;
      assert nodes[..k] == head + content;
      assert nodes[k..] == tail;
      TextContentAppend(head + content, tail);
      TextContentAppend(head, content);
      assert TextContent(head) == before[..span.start] by {
        assert head[1..] == [];
      }
      assert TextContent(tail) == c.text[c.offset..] by {
        assert tail[1..] == [];
      }
      assert before[..span.start] == c.text[..span.start];
      assert c.text[c.offset..][..c.selEnd - c.offset] == c.text[c.offset..c.selEnd] by {
        var t := c.text[c.offset..];
        assert |t[..c.selEnd - c.offset]| == |c.text[c.offset..c.selEnd]|;
        forall i | 0 <= i < c.selEnd - c.offset ensures t[..c.selEnd - c.offset][i] == c.text[c.offset..c.selEnd][i] {
          assert t[i] == c.text[c.offset + i];
        }
      }
      Some(Splice(nodes, k, c.selEnd - c.offset))
  }

  /**
   * With an empty trigger the contenteditable expansion always succeeds:
   * the node is split at the selection start, the content sits between the
   * halves, the selected text is kept, and the caret lands right after it.
   */
  lemma EmptyTriggerSplicesAtCaret(c: Caret, content: seq<Node>)
    requires ValidCaret(c)
    ensures ExpandEditable(c, [], content).Some?
    ensures ExpandEditable(c, [], content).value.nodes == [Text(c.text[..c.offset])] + content + [Text(c.text[c.offset..])]
    ensures ExpandEditable(c, [], content).value.caretIndex == 1 + |content|
    ensures ExpandEditable(c, [], content).value.caretOffset == c.selEnd - c.offset
  {
    assert OccursAt(c.text[..c.offset], [], c.offset);
    var sp := ExpandEditable(c, [], content).value;
    assert sp.nodes == sp.nodes[..sp.caretIndex] + sp.nodes[sp.caretIndex..];
    assert |sp.nodes[..sp.caretIndex]| == 1 + |content|;
    assert |c.text[c.offset..c.selEnd]| == c.selEnd - c.offset;
  }
}

=== FILE: html.dfy ===
/**
 * An already-parsed HTML fragment and the sanitiser of the Firefox variant
 * (`sanitizeHTML`): denylisted elements are removed with everything inside
 * them, then event-handler and `javascript:` attributes are stripped from
 * the elements that remain.
 */
module Html {
  import opened JsString

  /** One attribute of an element, name as the parser reports it (lower case). */
  datatype Attr = Attr(name: string, value: string)

  /** A parsed node: text, comment, or element with its tag name (lower case), attributes and children. */
  datatype Node =
    | Text(data: string)
    | Comment(data: string)
    | Element(tag: string, attrs: seq<Attr>, children: seq<Node>)

  /** The elements `querySelectorAll('script, iframe, object, embed, form')` selects. */
  const DeniedTags: set<string> := {"script", "iframe", "object", "embed", "form"}

  predicate IsDenied(tag: string)
  {
    tag in DeniedTags
  }

  /**
   * The attribute test of the sanitiser: the name starts with "on", or the
   * value is non-empty and contains "javascript:" ignoring case, or the
   * attribute is an href whose value contains "javascript:" ignoring case.
   */
  predicate UnsafeAttr(a: Attr)
  {
    || StartsWith(a.name, "on")
    || (a.value != [] && Includes(Lower(a.value), "javascript:"))
    || (a.name == "href" && Includes(Lower(a.value), "javascript:"))
  }

  /** The href clause adds nothing: an attribute is unsafe iff it is an "on" handler or mentions "javascript:". */
  lemma UnsafeAttrIff(a: Attr)
    ensures UnsafeAttr(a) <==> StartsWith(a.name, "on") || Includes(Lower(a.value), "javascript:")
  {
    if Includes(Lower(a.value), "javascript:") {
      var i :| 0 <= i <= |Lower(a.value)| - |"javascript:"| && OccursAt(Lower(a.value), "javascript:", i);
      assert a.value != [];
    }
  }

  /** No element anywhere in the forest is denylisted. */
  predicate NoDenied(ns: seq<Node>)
  {
    forall i | 0 <= i < |ns| :: NoDeniedNode(ns[i])
  }

  predicate NoDeniedNode(n: Node)
  {
    match n
    case Element(tag, _, kids) => !IsDenied(tag) && NoDenied(kids)
    case _ => true
  }

  /** No element anywhere in the forest carries an unsafe attribute. */
  predicate SafeAttrs(ns: seq<Node>)
  {
    forall i | 0 <= i < |ns| :: SafeAttrsNode(ns[i])
  }

  predicate SafeAttrsNode(n: Node)
  {
    match n
    case Element(_, attrs, kids) => (forall j | 0 <= j < |attrs| :: !UnsafeAttr(attrs[j])) && SafeAttrs(kids)
    case _ => true
  }

  /** A forest is free of denylisted elements iff its first node and the rest are. */
  lemma NoDeniedCons(ns: seq<Node>)
    requires ns != []
    ensures NoDenied(ns) <==> NoDeniedNode(ns[0]) && NoDenied(ns[1..])
  {
    if NoDeniedNode(ns[0]) && NoDenied(ns[1..]) {
      forall i | 0 < i < |ns| ensures NoDeniedNode(ns[i]) {
        assert ns[i] == ns[1..][i - 1];
      }
    }
  }

  /** A forest has only safe attributes iff its first node and the rest do. */
  lemma SafeAttrsCons(ns: seq<Node>)
    requires ns != []
    ensures SafeAttrs(ns) <==> SafeAttrsNode(ns[0]) && SafeAttrs(ns[1..])
  {
    if SafeAttrsNode(ns[0]) && SafeAttrs(ns[1..]) {
      forall i | 0 < i < |ns| ensures SafeAttrsNode(ns[i]) {
        assert ns[i] == ns[1..][i - 1];
      }
    }
  }

  /** What the sanitiser guarantees of its output. */
  predicate Clean(ns: seq<Node>)
  {
    NoDenied(ns) && SafeAttrs(ns)
  }

  /** `textContent`: the text nodes of the forest concatenated in document order (comments excluded). */
  function TextContent(ns: seq<Node>): string
  {
    if ns == [] then []
    else
      var first := match ns[0]
        case Text(d) => d
        case Comment(_) => []
        case Element(_, _, kids) => TextContent(kids);
      first + TextContent(ns[1..])
  }

  /** The text of a concatenation of forests is the concatenation of their texts. */
  lemma {:induction false} TextContentAppend(a: seq<Node>, b: seq<Node>)
    ensures TextContent(a + b) == TextContent(a) + TextContent(b)
  {
    if a != [] {
      TextContentAppend(a[1..], b);
      assert (a + b)[1..] == a[1..] + b;
      assert (a + b)[0] == a[0];
    } else {
      assert a + b == b;
    }
  }

  /** The attribute list with every unsafe attribute removed, order kept. */
  function FilterAttrs(attrs: seq<Attr>): (r: seq<Attr>)
    ensures |r| <= |attrs|
    ensures forall a :: a in r <==> a in attrs && !UnsafeAttr(a)
    ensures (forall j | 0 <= j < |attrs| :: !UnsafeAttr(attrs[j])) ==> r == attrs
  {
    if attrs == [] then []
    else if UnsafeAttr(attrs[0]) then FilterAttrs(attrs[1..])
    else [attrs[0]] + FilterAttrs(attrs[1..])
  }

  /**
   * First pass (`querySelectorAll(...).forEach(node => node.remove())`):
   * every denylisted element is dropped together with its subtree.
   */
  function Prune(ns: seq<Node>): (r: seq<Node>)
    ensures NoDenied(r)
    ensures NoDenied(ns) ==> r == ns
  {
    if ns == [] then []
    else
      var rest := Prune(ns[1..]);
      NoDeniedCons(ns);
      match ns[0]
      case Element(tag, attrs, kids) =>
        if IsDenied(tag) then rest
        else
          var r := [Element(tag, attrs, Prune(kids))] + rest;
          assert r[1..] == rest;
          NoDeniedCons(r);
          r
      case _ =>
        var r := [ns[0]] + rest;
        assert r[1..] == rest;
        NoDeniedCons(r);
        r
  }

  /**
   * Second pass (`querySelectorAll('*')` and `removeAttribute`): every
   * element keeps its tag and children and loses its unsafe attributes.
   */
  function StripAttrs(ns: seq<Node>): (r: seq<Node>)
    ensures |r| == |ns|
    ensures SafeAttrs(r)
    ensures NoDenied(ns) ==> NoDenied(r)
    ensures SafeAttrs(ns) ==> r == ns
    ensures TextContent(r) == TextContent(ns)
  {
    if ns == [] then []
    else
      var rest := StripAttrs(ns[1..]);
      var first := match ns[0]
        case Element(tag, attrs, kids) => Element(tag, FilterAttrs(attrs), StripAttrs(kids))
        case _ => ns[0];
      var r := [first] + rest;
      assert r[1..] == rest && r[0] == first;
      NoDeniedCons(ns);
      NoDeniedCons(r);
      SafeAttrsCons(ns);
      SafeAttrsCons(r);
      r
  }

  /** `sanitizeHTML` on the parsed fragment: prune, then strip attributes. */
  function Sanitize(ns: seq<Node>): (r: seq<Node>)
    ensures Clean(r)
    ensures Clean(ns) ==> r == ns
    ensures TextContent(r) == TextContent(Prune(ns))
  {
    StripAttrs(Prune(ns))
  }

  /** Sanitising a sanitised fragment changes nothing. */
  lemma SanitizeIdempotent(ns: seq<Node>)
    ensures Sanitize(Sanitize(ns)) == Sanitize(ns)
  {
  }

  /** A fragment without denylisted elements keeps all of its text through sanitising. */
  lemma SanitizeKeepsText(ns: seq<Node>)
    requires NoDenied(ns)
    ensures TextContent(Sanitize(ns)) == TextContent(ns)
  {
  }

  /**
   * Pruning keeps the text of every node outside the removed elements:
   * the text of a forest is the text of its first node (nothing when that
   * node is denylisted) followed by the text of the rest.
   */
  lemma {:induction false} PruneText(ns: seq<Node>)
    requires ns != []
    ensures TextContent(Prune(ns)) ==
      (match ns[0]
       case Element(tag, _, kids) => if IsDenied(tag) then [] else TextContent(Prune(kids))
       case Text(d) => d
       case Comment(_) => []) + TextContent(Prune(ns[1..]))
  {
  }

  /**
   * Sanitising keeps every element that is not denylisted, with its tag, and
   * keeps exactly the safe attributes of each kept element (shown here for
   * the top level; the children are sanitised the same way).
   */
  lemma {:induction false} SanitizeKeepsSafeElement(tag: string, attrs: seq<Attr>, kids: seq<Node>, rest: seq<Node>)
    requires !IsDenied(tag)
    ensures Sanitize([Element(tag, attrs, kids)] + rest)
      == [Element(tag, FilterAttrs(attrs), Sanitize(kids))] + Sanitize(rest)
  {
    var ns := [Element(tag, attrs, kids)] + rest;
    assert ns[1..] == rest;
    assert Prune(ns) == [Element(tag, attrs, Prune(kids))] + Prune(rest);
    assert ([Element(tag, attrs, Prune(kids))] + Prune(rest))[1..] == Prune(rest);
  }

  /** A denylisted element disappears with its whole subtree. */
  lemma {:induction false} SanitizeDropsDenied(tag: string, attrs: seq<Attr>, kids: seq<Node>, rest: seq<Node>)
    requires IsDenied(tag)
    ensures Sanitize([Element(tag, attrs, kids)] + rest) == Sanitize(rest)
  {
    var ns := [Element(tag, attrs, kids)] + rest;
    assert ns[1..] == rest;
  }

  /**
   * A handler attack: `<img src="a.png" onerror="x()">` keeps
   * its src and loses its handler, and a `<script>` disappears with its text.
   */
  lemma SanitizeExample()
    ensures Sanitize([Element("img", [Attr("src", "a.png"), Attr("onerror", "x()")], []),
                      Element("script", [], [Text("x()")]),
                      Text("hi")])
         == [Element("img", [Attr("src", "a.png")], []), Text("hi")]
  {
    var img := Element("img", [Attr("src", "a.png"), Attr("onerror", "x()")], []);
    var script := Element("script", [], [Text("x()")]);
    var ns := [img, script, Text("hi")];
    assert !UnsafeAttr(Attr("src", "a.png")) by {
      assert |Lower("a.png")| < |"javascript:"|;
      assert "src"[..2][0] == 's';
    }
    assert StartsWith("onerror", "on");
    assert FilterAttrs([Attr("src", "a.png"), Attr("onerror", "x()")]) == [Attr("src", "a.png")] by {
      assert [Attr("src", "a.png"), Attr("onerror", "x()")][1..] == [Attr("onerror", "x()")];
    }
    assert ns[1..] == [script, Text("hi")];
    assert ns[1..][1..] == [Text("hi")];
    assert Prune([Text("hi")]) == [Text("hi")];
    assert Prune(ns[1..]) == [Text("hi")];
    assert Prune(ns) == [Element("img", img.attrs, [])] + [Text("hi")];
  }
}

=== FILE: js_string.dfy ===
/**
 * The JavaScript string operations the extension relies on, over strings
 * taken as sequences of Unicode scalar values. JavaScript counts UTF-16
 * code units instead, so lengths and offsets agree only on text inside the
 * Basic Multilingual Plane.
 */
module JsString {

  /** `t` occurs in `s` at index `i`. */
  predicate OccursAt(s: string, t: string, i: int)
  {
    0 <= i && i + |t| <= |s| && s[i..i + |t|] == t
  }

  /** `String.prototype.endsWith`. */
  predicate EndsWith(s: string, t: string)
  {
    |t| <= |s| && s[|s| - |t|..] == t
  }

  /** `String.prototype.startsWith`. */
  predicate StartsWith(s: string, t: string)
  {
    |t| <= |s| && s[..|t|] == t
  }

  /** `String.prototype.includes`. */
  predicate Includes(s: string, t: string)
  {
    exists i | 0 <= i <= |s| - |t| :: OccursAt(s, t, i)
  }

  /** Search for `t` in `s` from index `k` downwards. */
  function LastIndexFrom(s: string, t: string, k: int): (r: int)
    ensures r == -1 || (r <= k && OccursAt(s, t, r))
    ensures forall i :: r < i <= k ==> !OccursAt(s, t, i)
    decreases k + 1
  {
    if k < 0 then -1
    else if OccursAt(s, t, k) then k
    else LastIndexFrom(s, t, k - 1)
  }

  /**
   * `String.prototype.lastIndexOf`: the greatest index at which `t` occurs
   * in `s`, or -1 when it occurs nowhere.
   */
  function LastIndexOf(s: string, t: string): (r: int)
    ensures r == -1 || OccursAt(s, t, r)
    ensures forall i :: r < i ==> !OccursAt(s, t, i)
  {
    LastIndexFrom(s, t, |s| - |t|)
  }

  /** lastIndexOf finds something exactly when includes holds. */
  lemma LastIndexOfFound(s: string, t: string)
    ensures LastIndexOf(s, t) != -1 <==> Includes(s, t)
  {
    var r := LastIndexOf(s, t);
    if r != -1 {
      assert OccursAt(s, t, r);
    }
  }

  /**
   * When `s` ends with `t`, the last occurrence of `t` is that suffix:
   * lastIndexOf returns |s| - |t|.
   */
  lemma LastIndexOfSuffix(s: string, t: string)
    requires EndsWith(s, t)
    ensures LastIndexOf(s, t) == |s| - |t|
  {
    assert OccursAt(s, t, |s| - |t|);
  }

  /** `toLowerCase` on one code unit, restricted to the ASCII letters. */
  function LowerChar(c: char): char
  {
    if 'A' <= c <= 'Z' then (c as int + 32) as char else c
  }

  /** `String.prototype.toLowerCase`, restricted to the ASCII letters. */
  function Lower(s: string): (r: string)
    ensures |r| == |s|
    ensures forall i | 0 <= i < |s| :: r[i] == LowerChar(s[i])
  {
    if s == [] then [] else [LowerChar(s[0])] + Lower(s[1..])
  }

  /** Lower-casing twice is lower-casing once. */
  lemma LowerIdempotent(s: string)
    ensures Lower(Lower(s)) == Lower(s)
  {
  }

  /** The characters `String.prototype.trim` strips: ECMAScript WhiteSpace and LineTerminator. */
  predicate IsSpace(c: char)
  {
    || c == ' ' || c == '\t' || c == '\n' || c == '\r'
    || c == '\U{000B}' || c == '\U{000C}' || c == '\U{00A0}' || c == '\U{FEFF}'
    || c == '\U{1680}' || ('\U{2000}' <= c <= '\U{200A}')
    || c == '\U{2028}' || c == '\U{2029}' || c == '\U{202F}' || c == '\U{205F}' || c == '\U{3000}'
  }

  /** `s` without its leading white space. */
  function TrimStart(s: string): (r: string)
    ensures |r| <= |s| && r == s[|s| - |r|..]
    ensures forall i | 0 <= i < |s| - |r| :: IsSpace(s[i])
    ensures r == [] || !IsSpace(r[0])
  {
    if s != [] && IsSpace(s[0]) then TrimStart(s[1..]) else s
  }

  /** `s` without its trailing white space. */
  function TrimEnd(s: string): (r: string)
    ensures |r| <= |s| && r == s[..|r|]
    ensures forall i | |r| <= i < |s| :: IsSpace(s[i])
    ensures r == [] || !IsSpace(r[|r| - 1])
  {
    if s != [] && IsSpace(s[|s| - 1]) then TrimEnd(s[..|s| - 1]) else s
  }

  /**
   * A prefix `r` of a suffix `t` of `s` occurs in `s` where `t` starts, and
   * white space after `r` in `t` is white space after it in `s`.
   */
  lemma TrimCuts(s: string, t: string, r: string)
    requires |t| <= |s| && t == s[|s| - |t|..]
    requires |r| <= |t| && r == t[..|r|]
    requires forall i | |r| <= i < |t| :: IsSpace(t[i])
    ensures OccursAt(s, r, |s| - |t|)
    ensures forall i | |s| - |t| + |r| <= i < |s| :: IsSpace(s[i])
  {
    var k := |s| - |t|;
    assert s[k..][..|r|] == r;
    forall i | k + |r| <= i < |s| ensures IsSpace(s[i]) {
      assert s[i] == t[i - k];
    }
  }

  /**
   * `String.prototype.trim`: `s` with its leading and trailing white space
   * removed and nothing else, so the result neither starts nor ends with
   * white space and is empty exactly when `s` is all white space.
   */
  function Trim(s: string): (r: string)
    ensures Includes(s, r)
    ensures exists k | 0 <= k <= |s| - |r| ::
      && OccursAt(s, r, k)
      && (forall i | 0 <= i < k :: IsSpace(s[i]))
      && (forall i | k + |r| <= i < |s| :: IsSpace(s[i]))
    ensures r == [] || (!IsSpace(r[0]) && !IsSpace(r[|r| - 1]))
    ensures r == [] <==> forall i | 0 <= i < |s| :: IsSpace(s[i])
  {
    var t := TrimStart(s);
    var r := TrimEnd(t);
    TrimCuts(s, t, r);
    var k := |s| - |t|;
    assert r != [] ==> s[k] == r[0];
    r
  }

  /** `Array.prototype.join` with a one-character separator. */
  function Join(parts: seq<string>, sep: char): string
  {
    if |parts| == 0 then []
    else if |parts| == 1 then parts[0]
    else parts[0] + [sep] + Join(parts[1..], sep)
  }

  /**
   * `String.prototype.split` with a one-character separator: at least one
   * part, and no part contains the separator.
   */
  function Split(s: string, sep: char): (parts: seq<string>)
    ensures |parts| >= 1
    ensures forall i | 0 <= i < |parts| :: sep !in parts[i]
  {
    if s == [] then [[]]
    else
      var rest := Split(s[1..], sep);
      if s[0] == sep then [[]] + rest
      else [[s[0]] + rest[0]] + rest[1..]
  }

  /** Joining the parts of a split with the same separator gives back the string. */
  lemma {:induction false} SplitJoin(s: string, sep: char)
    ensures Join(Split(s, sep), sep) == s
  {
    if s != [] {
      SplitJoin(s[1..], sep);
      var rest := Split(s[1..], sep);
      if s[0] == sep {
        assert ([[]] + rest)[1..] == rest;
      } else {
        var parts := [[s[0]] + rest[0]] + rest[1..];
        if |rest| == 1 {
          assert Join(parts, sep) == [s[0]] + rest[0];
        } else {
          assert parts[1..] == rest[1..];
          assert Join(rest, sep) == rest[0] + [sep] + Join(rest[1..], sep);
          assert s == [s[0]] + s[1..];
        }
      }
    }
  }

  /** Splitting `p + tail`, where `p` has no separator, glues `p` onto the first part. */
  lemma {:induction false} SplitPrefix(p: string, tail: string, sep: char)
    requires sep !in p
    ensures Split(p + tail, sep) == [p + Split(tail, sep)[0]] + Split(tail, sep)[1..]
  {
    if p != [] {
      SplitPrefix(p[1..], tail, sep);
      assert (p + tail)[1..] == p[1..] + tail;
      assert (p + tail)[0] == p[0];
      assert [p[0]] + (p[1..] + Split(tail, sep)[0]) == p + Split(tail, sep)[0];
    } else {
      var parts := Split(tail, sep);
      assert p + tail == tail;
      assert p + parts[0] == parts[0];
      assert parts == [parts[0]] + parts[1..];
    }
  }

  /** Splitting a join of separator-free parts gives back the parts. */
  lemma {:induction false} JoinSplit(parts: seq<string>, sep: char)
    requires |parts| >= 1
    requires forall i | 0 <= i < |parts| :: sep !in parts[i]
    ensures Split(Join(parts, sep), sep) == parts
  {
    if |parts| == 1 {
      SplitPrefix(parts[0], [], sep);
      assert parts[0] + [] == parts[0];
    } else {
      var tail := Join(parts[1..], sep);
      JoinSplit(parts[1..], sep);
      SplitPrefix(parts[0], [sep] + tail, sep);
      assert parts[0] + [sep] + tail == parts[0] + ([sep] + tail);
      assert ([sep] + tail)[1..] == tail;
      assert Split([sep] + tail, sep) == [[]] + parts[1..];
      assert parts[0] + [] == parts[0];
    }
  }

  /** A string without the separator splits into itself alone. */
  lemma SplitWithoutSeparator(s: string, sep: char)
    requires sep !in s
    ensures Split(s, sep) == [s]
  {
    SplitPrefix(s, [], sep);
    assert s + [] == s;
  }

  /** Splitting yields two or more parts exactly when the separator occurs. */
  lemma {:induction false} SplitManyParts(s: string, sep: char)
    ensures |Split(s, sep)| >= 2 <==> sep in s
  {
    if sep !in s {
      SplitWithoutSeparator(s, sep);
    } else if s[0] != sep {
      SplitManyParts(s[1..], sep);
      assert sep in s[1..] by {
        var i :| 0 <= i < |s| && s[i] == sep;
        assert s[1..][i - 1] == sep;
      }
    }
  }

  /** Every part of a split occurs in the string it came from. */
  lemma {:induction false} SplitPartOccurs(s: string, sep: char, j: int)
    requires 0 <= j < |Split(s, sep)|
    ensures Includes(s, Split(s, sep)[j])
  {
    var parts := Split(s, sep);
    SplitJoin(s, sep);
    JoinPartOccurs(parts, sep, j);
  }

  /** Every part of a join occurs in the joined string. */
  lemma {:induction false} JoinPartOccurs(parts: seq<string>, sep: char, j: int)
    requires 0 <= j < |parts|
    ensures Includes(Join(parts, sep), parts[j])
  {
    var s := Join(parts, sep);
    if |parts| == 1 {
      assert OccursAt(s, parts[0], 0);
    } else if j == 0 {
      assert s[..|parts[0]|] == parts[0];
      assert OccursAt(s, parts[0], 0);
    } else {
      JoinPartOccurs(parts[1..], sep, j - 1);
      var tail := Join(parts[1..], sep);
      var k :| 0 <= k <= |tail| - |parts[j]| && OccursAt(tail, parts[1..][j - 1], k);
      var off := |parts[0]| + 1;
      assert s == parts[0] + [sep] + tail;
      assert s[off + k..off + k + |parts[j]|] == tail[k..k + |parts[j]|];
      assert OccursAt(s, parts[j], off + k);
    }
  }

  /** An occurrence in `s` is an occurrence, lower-cased, in Lower(s). */
  lemma LowerOccurs(s: string, t: string, i: int)
    requires OccursAt(s, t, i)
    ensures OccursAt(Lower(s), Lower(t), i)
  {
    assert Lower(s)[i..i + |t|] == Lower(s[i..i + |t|]);
  }
}

=== FILE: mozilla_engine.dfy ===
/**
 * The Firefox content script: the text-trigger check on the text before the
 * caret, the "looks like HTML" heuristic, sanitised rich insertion, and the
 * hotkey handler built on a canonical combination string.
 */
module MozillaEngine {
  import opened Wrappers
  import opened JsString
  import opened Rules
  import opened Html
  import opened Expansion

  /**
   * The heuristic that replaces the stored flag: a value is treated as rich
   * text when it contains both '<' and '>'.
   */
  predicate LooksRich(value: string)
  {
    Includes(value, "<") && Includes(value, ">")
  }

  /** The heuristic holds iff both characters occur somewhere in the value. */
  lemma LooksRichIff(value: string)
    ensures LooksRich(value) <==> '<' in value && '>' in value
  {
    if '<' in value {
      var i :| 0 <= i < |value| && value[i] == '<';
      assert OccursAt(value, "<", i);
    }
    if '>' in value {
      var i :| 0 <= i < |value| && value[i] == '>';
      assert OccursAt(value, ">", i);
    }
    if Includes(value, "<") {
      var i :| 0 <= i <= |value| - 1 && OccursAt(value, "<", i);
      assert value[i] == value[i..i + 1][0];
    }
    if Includes(value, ">") {
      var i :| 0 <= i <= |value| - 1 && OccursAt(value, ">", i);
      assert value[i] == value[i..i + 1][0];
    }
  }

  /**
   * The text written into an input or textarea: a value that looks rich is
   * parsed, sanitised and reduced to its text content.
   */
  function FlatInsert(value: string, parse: Parser): (s: string)
    ensures !LooksRich(value) ==> s == value
    ensures LooksRich(value) ==> s == TextContent(Sanitize(parse(value)))
    ensures LooksRich(value) ==> s == TextContent(Prune(parse(value)))
  {
    if LooksRich(value) then TextContent(Sanitize(parse(value))) else value
  }

  /**
   * What is inserted into a contenteditable region: a sanitised fragment
   * for a value that looks rich, one text node otherwise. Either way it
   * holds no denylisted element and no unsafe attribute.
   */
  function EditableInsert(value: string, parse: Parser): (ns: seq<Node>)
    ensures Clean(ns)
    ensures TextContent(ns) == FlatInsert(value, parse)
    ensures LooksRich(value) && Clean(parse(value)) ==> ns == parse(value)
    ensures !LooksRich(value) ==> ns == [Text(value)]
  {
    if LooksRich(value) then Sanitize(parse(value))
    else
      var ns := [Text(value)];
      assert ns[1..] == [];
      assert NoDeniedNode(ns[0]) && SafeAttrsNode(ns[0]);
      ns
  }

  /**
   * The loop of `checkForTextTriggers`: the first text rule in list order
   * whose trigger ends the text before the caret. The loop stops at that
   * rule whatever the expansion then does.
   */
  function SelectTrigger(textRules: seq<Rule>, before: string): (r: Option<nat>)
    ensures r.Some? ==> r.value < |textRules| && EndsWith(before, textRules[r.value].trigger)
    ensures r.Some? ==> forall j | 0 <= j < r.value :: !EndsWith(before, textRules[j].trigger)
    ensures r.None? ==> forall j | 0 <= j < |textRules| :: !EndsWith(before, textRules[j].trigger)
  {
    FindIndex(textRules, (x: Rule) => EndsWith(before, x.trigger))
  }

  /**
   * `checkForTextTriggers` on an input or textarea: only text rules take
   * part, the first whose trigger ends the text before the caret is chosen,
   * and its expansion always succeeds because it tests the same text.
   */
  function OnInputFlat(rules: seq<Rule>, f: Field, parse: Parser): (r: Option<Expanded<Field>>)
    requires ValidField(f)
    ensures var tr := TextRules(rules);
      r.Some? ==>
        && r.value.ruleIndex < |tr|
        && !IsHotkey(tr[r.value.ruleIndex])
        && EndsWith(f.value[..f.selStart], tr[r.value.ruleIndex].trigger)
        && (forall j | 0 <= j < r.value.ruleIndex :: !EndsWith(f.value[..f.selStart], tr[j].trigger))
        && Some(r.value.surface) == ExpandFlat(f, tr[r.value.ruleIndex].trigger, FlatInsert(tr[r.value.ruleIndex].value, parse))
    ensures r.None? <==> forall j | 0 <= j < |TextRules(rules)| :: !EndsWith(f.value[..f.selStart], TextRules(rules)[j].trigger)
  {
    var tr := TextRules(rules);
    match SelectTrigger(tr, f.value[..f.selStart])
    case None => None
    case Some(i) =>
      assert tr[i] in tr;
      var rule := tr[i];
      Some(Expanded(i, ExpandFlat(f, rule.trigger, FlatInsert(rule.value, parse)).value))
  }

  /**
   * `checkForTextTriggers` on a contenteditable element whose caret is in a
   * text node: the same choice, made on that node's text before the caret.
   */
  function OnInputEditable(rules: seq<Rule>, c: Caret, parse: Parser): (r: Option<Expanded<Splice>>)
    requires ValidCaret(c)
    ensures var tr := TextRules(rules);
      r.Some? ==>
        && r.value.ruleIndex < |tr|
        && EndsWith(c.text[..c.offset], tr[r.value.ruleIndex].trigger)
        && (forall j | 0 <= j < r.value.ruleIndex :: !EndsWith(c.text[..c.offset], tr[j].trigger))
        && Some(r.value.surface) == ExpandEditable(c, tr[r.value.ruleIndex].trigger, EditableInsert(tr[r.value.ruleIndex].value, parse))
    ensures r.None? <==> forall j | 0 <= j < |TextRules(rules)| :: !EndsWith(c.text[..c.offset], TextRules(rules)[j].trigger)
  {
    var tr := TextRules(rules);
    match SelectTrigger(tr, c.text[..c.offset])
    case None => None
    case Some(i) =>
      var rule := tr[i];
      Some(Expanded(i, ExpandEditable(c, rule.trigger, EditableInsert(rule.value, parse)).value))
  }

  /** The parts of a keydown event the hotkey handler reads. */
  datatype KeyEvent = KeyEvent(key: string, ctrlKey: bool, altKey: bool, shiftKey: bool, metaKey: bool)

  /** The `key` values of the modifier keys themselves. */
  predicate IsModifierKey(key: string)
  {
    key == "Control" || key == "Alt" || key == "Shift" || key == "Meta"
  }

  /** The four modifier flags of a keydown event. */
  datatype Modifier = Ctrl | Alt | Shift | Meta

  /** The position of a modifier in the fixed order Ctrl, Alt, Shift, Meta. */
  function Rank(m: Modifier): nat
  {
    match m
    case Ctrl => 0
    case Alt => 1
    case Shift => 2
    case Meta => 3
  }

  /** The name `handleHotkeyPress` pushes for a held modifier. */
  function Name(m: Modifier): string
  {
    match m
    case Ctrl => "Ctrl"
    case Alt => "Alt"
    case Shift => "Shift"
    case Meta => "Meta"
  }

  /** No modifier name contains the separator. */
  lemma NameHasNoSeparator(m: Modifier)
    ensures HotkeySeparator !in Name(m)
  {
    match m
    case Ctrl => assert Name(m) == ['C', 't', 'r', 'l'];
    case Alt => assert Name(m) == ['A', 'l', 't'];
    case Shift => assert Name(m) == ['S', 'h', 'i', 'f', 't'];
    case Meta => assert Name(m) == ['M', 'e', 't', 'a'];
  }

  /** The modifiers are in strictly increasing rank. */
  predicate Ordered(ms: seq<Modifier>)
  {
    forall i, j | 0 <= i < j < |ms| :: Rank(ms[i]) < Rank(ms[j])
  }

  /** Appending a modifier of higher rank than all present, when it is held. */
  function PushHeld(ms: seq<Modifier>, held: bool, m: Modifier): (r: seq<Modifier>)
    requires Ordered(ms)
    requires forall i | 0 <= i < |ms| :: Rank(ms[i]) < Rank(m)
    ensures Ordered(r)
    ensures forall i | 0 <= i < |r| :: Rank(r[i]) <= Rank(m)
    ensures m in r <==> held
    ensures forall x | x != m :: x in r <==> x in ms
  {
    if held then ms + [m] else ms
  }

  /** The held modifiers, each once, always in the order Ctrl, Alt, Shift, Meta. */
  function HeldModifiers(e: KeyEvent): (ms: seq<Modifier>)
    ensures Ordered(ms)
    ensures (Ctrl in ms <==> e.ctrlKey) && (Alt in ms <==> e.altKey)
    ensures (Shift in ms <==> e.shiftKey) && (Meta in ms <==> e.metaKey)
  {
    var c := PushHeld([], e.ctrlKey, Ctrl);
    var a := PushHeld(c, e.altKey, Alt);
    var s := PushHeld(a, e.shiftKey, Shift);
    PushHeld(s, e.metaKey, Meta)
  }

  /** The names of the held modifiers, in the order of `HeldModifiers`. */
  function ModifierNames(e: KeyEvent): (names: seq<string>)
    ensures |names| == |HeldModifiers(e)|
    ensures forall i | 0 <= i < |names| :: names[i] == Name(HeldModifiers(e)[i])
    ensures forall i | 0 <= i < |names| :: HotkeySeparator !in names[i]
  {
    var ms := HeldModifiers(e);
    forall m: Modifier ensures HotkeySeparator !in Name(m) {
      NameHasNoSeparator(m);
    }
    seq(|ms|, i requires 0 <= i < |ms| => Name(ms[i]))
  }

  /** Different modifiers have different names. */
  lemma NameInjective(m: Modifier, n: Modifier)
    ensures Name(m) == Name(n) ==> m == n
  {
    if m != n {
      assert Name(m)[0] != Name(n)[0];
    }
  }

  /** Names of a modifier list contain a modifier's name exactly when the list holds it. */
  lemma NamesOf(ms: seq<Modifier>, names: seq<string>, m: Modifier)
    requires |names| == |ms| && forall i | 0 <= i < |ms| :: names[i] == Name(ms[i])
    ensures Name(m) in names <==> m in ms
  {
    if Name(m) in names {
      var i :| 0 <= i < |names| && names[i] == Name(m);
      NameInjective(ms[i], m);
    }
  }

  /**
   * The names read as the event's flags: "Ctrl", "Alt", "Shift" and "Meta"
   * each appear exactly when that modifier is held, and no name repeats.
   */
  lemma ModifierNamesHeld(e: KeyEvent)
    ensures ("Ctrl" in ModifierNames(e) <==> e.ctrlKey) && ("Alt" in ModifierNames(e) <==> e.altKey)
    ensures ("Shift" in ModifierNames(e) <==> e.shiftKey) && ("Meta" in ModifierNames(e) <==> e.metaKey)
    ensures forall i, j | 0 <= i < j < |ModifierNames(e)| :: ModifierNames(e)[i] != ModifierNames(e)[j]
  {
    var ms := HeldModifiers(e);
    var names := ModifierNames(e);
    NamesOf(ms, names, Ctrl);
    NamesOf(ms, names, Alt);
    NamesOf(ms, names, Shift);
    NamesOf(ms, names, Meta);
    forall i, j | 0 <= i < j < |names| ensures names[i] != names[j] {
      NameInjective(ms[i], ms[j]);
    }
  }

  /**
   * The list `handleHotkeyPress` joins: the held modifiers in fixed order,
   * then the key itself unless it is a modifier key.
   */
  function ComboParts(e: KeyEvent): (parts: seq<string>)
    ensures |parts| >= |ModifierNames(e)| && parts[..|ModifierNames(e)|] == ModifierNames(e)
    ensures IsModifierKey(e.key) ==> parts == ModifierNames(e)
    ensures !IsModifierKey(e.key) ==> |parts| == |ModifierNames(e)| + 1 && parts[|parts| - 1] == e.key
    ensures HotkeySeparator !in e.key ==> forall i | 0 <= i < |parts| :: HotkeySeparator !in parts[i]
  {
    var names := ModifierNames(e);
    var parts := names + (if IsModifierKey(e.key) then [] else [e.key]);
    assert forall i | 0 <= i < |names| :: parts[i] == names[i];
    parts
  }

  /** The combination string, e.g. "Ctrl+Shift+K". */
  function ComboString(e: KeyEvent): string
  {
    Join(ComboParts(e), HotkeySeparator)
  }

  /**
   * The combination string can be read back: when the key is not '+'
   * itself, splitting it on '+' gives the modifiers in order and the key.
   */
  lemma ComboStringSplits(e: KeyEvent)
    requires HotkeySeparator !in e.key
    requires ComboParts(e) != []
    ensures Split(ComboString(e), HotkeySeparator) == ComboParts(e)
  {
    JoinSplit(ComboParts(e), HotkeySeparator);
  }

  /** The hotkey lookup: `trigger.toLowerCase() === keyComboString.toLowerCase()`. */
  predicate ComboMatches(r: Rule, combo: string)
  {
    Lower(r.trigger) == Lower(combo)
  }

  /**
   * `handleHotkeyPress` on an input or textarea: the first hotkey rule
   * whose trigger equals the combination string ignoring case is expanded
   * with an empty trigger, which inserts its value at the caret and keeps
   * the selected text.
   */
  function OnKeyDownFlat(hotkeys: seq<Rule>, e: KeyEvent, f: Field, parse: Parser): (r: Option<Expanded<Field>>)
    requires ValidField(f)
    ensures r.Some? ==> r.value.ruleIndex < |hotkeys|
    ensures r.Some? ==>
      var rule := hotkeys[r.value.ruleIndex];
      && ComboMatches(rule, ComboString(e))
      && (forall j | 0 <= j < r.value.ruleIndex :: !ComboMatches(hotkeys[j], ComboString(e)))
      && r.value.surface.selStart == r.value.surface.selEnd == f.selStart + |FlatInsert(rule.value, parse)|
      && r.value.surface.value == f.value[..f.selStart] + FlatInsert(rule.value, parse) + f.value[f.selStart..]
    ensures r.None? <==> forall j | 0 <= j < |hotkeys| :: !ComboMatches(hotkeys[j], ComboString(e))
  {
    var combo := ComboString(e);
    match FindIndex(hotkeys, (x: Rule) => ComboMatches(x, combo))
    case None => None
    case Some(i) =>
      var ins := FlatInsert(hotkeys[i].value, parse);
      EmptyTriggerInsertsAtCaret(f, ins);
      Some(Expanded(i, ExpandFlat(f, [], ins).value))
  }

  /**
   * `handleHotkeyPress` on a contenteditable element whose caret is in a
   * text node: the first matching hotkey rule is expanded with an empty
   * trigger, so the node is split at the selection's start and the
   * inserted content sits between its two halves; the selected text is
   * kept and the caret lands right after it.
   */
  function OnKeyDownEditable(hotkeys: seq<Rule>, e: KeyEvent, c: Caret, parse: Parser): (r: Option<Expanded<Splice>>)
    requires ValidCaret(c)
    ensures r.Some? ==> r.value.ruleIndex < |hotkeys|
    ensures r.Some? ==>
      var content := EditableInsert(hotkeys[r.value.ruleIndex].value, parse);
      && ComboMatches(hotkeys[r.value.ruleIndex], ComboString(e))
      && (forall j | 0 <= j < r.value.ruleIndex :: !ComboMatches(hotkeys[j], ComboString(e)))
      && r.value.surface.nodes == [Text(c.text[..c.offset])] + content + [Text(c.text[c.offset..])]
      && r.value.surface.caretIndex == 1 + |content|
      && r.value.surface.caretOffset == c.selEnd - c.offset
    ensures r.None? <==> forall j | 0 <= j < |hotkeys| :: !ComboMatches(hotkeys[j], ComboString(e))
  {
    var combo := ComboString(e);
    match FindIndex(hotkeys, (x: Rule) => ComboMatches(x, combo))
    case None => None
    case Some(i) =>
      var content := EditableInsert(hotkeys[i].value, parse);
      EmptyTriggerSplicesAtCaret(c, content);
      Some(Expanded(i, ExpandEditable(c, [], content).value))
  }

  /** The replies to an expansion request. */
  const NoEditableMessage: string := "No suitable active element found"

  /** The element an expansion request finds focused. */
  datatype Target = NoTarget | FlatTarget(field: Field) | EditableTarget(caret: Caret)

  /** A focused element in a state the handler can work on. */
  predicate ValidTarget(t: Target)
  {
    match t
    case NoTarget => true
    case FlatTarget(f) => ValidField(f)
    case EditableTarget(c) => ValidCaret(c)
  }

  /** The element after a successful expansion. */
  datatype Surface = FlatSurface(field: Field) | EditableSurface(splice: Splice)

  /**
   * An `EXPAND_HOTKEY_SNIPPET` request: refused without an editable
   * element; otherwise the value is inserted at the caret (an empty
   * trigger always matches), so the request always succeeds.
   */
  function OnExpandRequest(active: Target, value: string, parse: Parser): (r: Result<Surface, string>)
    requires ValidTarget(active)
    ensures r.Err? <==> active.NoTarget?
    ensures r.Err? ==> r.error == NoEditableMessage
    ensures active.FlatTarget? ==>
      var f := active.field;
      && r.Ok? && r.value.FlatSurface?
      && r.value.field.selStart == r.value.field.selEnd == f.selStart + |FlatInsert(value, parse)|
      && r.value.field.value == f.value[..f.selStart] + FlatInsert(value, parse) + f.value[f.selStart..]
    ensures active.EditableTarget? ==>
      var c := active.caret;
      && r.Ok? && r.value.EditableSurface?
      && r.value.splice.nodes == [Text(c.text[..c.offset])] + EditableInsert(value, parse) + [Text(c.text[c.offset..])]
      && r.value.splice.caretIndex == 1 + |EditableInsert(value, parse)|
      && r.value.splice.caretOffset == c.selEnd - c.offset
  {
    match active
    case NoTarget => Err(NoEditableMessage)
    case FlatTarget(f) =>
      var ins := FlatInsert(value, parse);
      EmptyTriggerInsertsAtCaret(f, ins);
      Ok(FlatSurface(ExpandFlat(f, [], ins).value))
    case EditableTarget(c) =>
      var content := EditableInsert(value, parse);
      EmptyTriggerSplicesAtCaret(c, content);
      Ok(EditableSurface(ExpandEditable(c, [], content).value))
  }
}

=== FILE: mozilla_options.dfy ===
/**
 * The Firefox options page, minus its rendering: the value preview, adding
 * with duplicate replacement, editing and deleting, and the import check
 * with its filter-then-append merge.
 */
module MozillaOptions {
  import opened Wrappers
  import opened JsString
  import opened Rules

  /** How many characters of a value the table shows before cutting it off. */
  const PreviewLength: nat := 50

  const Ellipsis: string := "..."

  /**
   * The value cell of the snippet table: the value itself when it is at
   * most 50 characters long, otherwise its first 50 followed by "...".
   */
  function Preview(value: string): (p: string)
    ensures |p| <= PreviewLength + |Ellipsis|
    ensures |value| <= PreviewLength ==> p == value
    ensures |value| > PreviewLength ==>
      |p| == PreviewLength + |Ellipsis| && p[..PreviewLength] == value[..PreviewLength] && EndsWith(p, Ellipsis)
  {
    if |value| > PreviewLength then value[..PreviewLength] + Ellipsis else value
  }

  /** Why the add handler did not save. */
  datatype AddError = MissingField | Declined

  /** Rule `i` is the first with trigger `t` (the one `findIndex` returns). */
  predicate FirstWithTrigger(rules: seq<Rule>, i: int, t: string)
    requires 0 <= i < |rules|
  {
    rules[i].trigger == t && forall j | 0 <= j < i :: rules[j].trigger != t
  }

  /**
   * The confirmed duplicate case: only the value of the first rule with
   * trigger `t` is replaced; its trigger and flag and every other rule are
   * kept, and the length is unchanged.
   */
  function ReplaceFirstValue(rules: seq<Rule>, t: string, v: string): (r: seq<Rule>)
    requires HasTrigger(rules, t)
    ensures |r| == |rules|
    ensures forall i | 0 <= i < |rules| ::
      r[i] == (if FirstWithTrigger(rules, i, t) then rules[i].(value := v) else rules[i])
  {
    match FindIndex(rules, (x: Rule) => x.trigger == t)
    case Some(k) => rules[k := rules[k].(value := v)]
  }

  /**
   * `addSnippet`: both trimmed inputs must be non-empty. A trigger already
   * in the list is a duplicate: if the user confirms, only the value of the
   * first rule with that trigger is replaced; if not, nothing changes.
   * A new trigger is appended at the end, without a rich-text flag.
   */
  function AddSnippet(rules: seq<Rule>, triggerInput: string, valueInput: string, confirmReplace: bool): (r: Result<seq<Rule>, AddError>)
    ensures (r.Err? && r.error == MissingField) <==> Trim(triggerInput) == [] || Trim(valueInput) == []
    ensures (r.Err? && r.error == Declined) <==>
      Trim(triggerInput) != [] && Trim(valueInput) != [] && HasTrigger(rules, Trim(triggerInput)) && !confirmReplace
    ensures r.Ok? && HasTrigger(rules, Trim(triggerInput)) ==>
      r.value == ReplaceFirstValue(rules, Trim(triggerInput), Trim(valueInput))
    ensures r.Ok? && !HasTrigger(rules, Trim(triggerInput)) ==>
      r.value == rules + [Rule(Trim(triggerInput), Trim(valueInput), false)]
  {
    var trigger := Trim(triggerInput);
    var value := Trim(valueInput);
    if trigger == [] || value == [] then Err(MissingField)
    else if HasTrigger(rules, trigger) then
      if confirmReplace then Ok(ReplaceFirstValue(rules, trigger, value)) else Err(Declined)
    else Ok(rules + [Rule(trigger, value, false)])
  }

  /**
   * `editSnippet`: an existing entry is loaded into the form and removed
   * with `splice(index, 1)`; an index with no entry changes nothing.
   */
  function EditSnippet(rules: seq<Rule>, index: int): (r: EditOutcome)
    ensures 0 <= index < |rules| ==> r.form == Some(rules[index]) && r.rules == rules[..index] + rules[index + 1..]
    ensures !(0 <= index < |rules|) ==> r.form.None? && r.rules == rules
  {
    if 0 <= index < |rules| then
      var rest := RemoveAt(rules, index);
      assert rest == rest[..index] + rest[index..];
      EditOutcome(rest, Some(rules[index]))
    else EditOutcome(rules, None)
  }

  /**
   * `deleteSnippet`: after the user confirms, `splice(index, 1)` removes
   * exactly the entry at the index and keeps the others in order.
   */
  function DeleteSnippet(rules: seq<Rule>, index: int, confirmed: bool): (r: seq<Rule>)
    ensures !confirmed ==> r == rules
    ensures confirmed && 0 <= index < |rules| ==> |r| == |rules| - 1 && r == rules[..index] + rules[index + 1..]
    ensures index >= |rules| ==> r == rules
  {
    if confirmed then
      var r := RemoveAt(rules, index);
      assert 0 <= index < |rules| ==> r == r[..index] + r[index..];
      r
    else rules
  }

  /** The import check for one element: `trigger` and `value` are present and non-empty. */
  predicate Truthy(it: Item)
  {
    HasFields(it) && it.trigger.value != [] && it.value.value != []
  }

  /** Why an import was refused. */
  datatype ImportError = NotAnArray | IncompleteItem | Cancelled

  /**
   * The import check: refused unless the payload is an array and every
   * element has a non-empty trigger and a non-empty value.
   */
  function ValidateImport(p: Payload): (r: Result<seq<Rule>, ImportError>)
    ensures r.Ok? <==> p.Array? && forall i | 0 <= i < |p.items| :: Truthy(p.items[i])
    ensures p.NotArray? ==> r == Err(NotAnArray)
    ensures (r.Err? && r.error == NotAnArray) <==> p.NotArray?
    ensures (r.Err? && r.error == IncompleteItem) <==> p.Array? && exists i | 0 <= i < |p.items| :: !Truthy(p.items[i])
    ensures r.Ok? ==> |r.value| == |p.items| && forall i | 0 <= i < |p.items| :: r.value[i] == ItemRule(p.items[i])
  {
    if p.NotArray? then Err(NotAnArray)
    else if forall i | 0 <= i < |p.items| :: Truthy(p.items[i]) then Ok(ItemRules(p.items))
    else Err(IncompleteItem)
  }

  /** `new Set(snippets.map(s => s.trigger))`. */
  function TriggerSet(rules: seq<Rule>): (ts: set<string>)
    ensures forall t :: t in ts <==> HasTrigger(rules, t)
  {
    set i | 0 <= i < |rules| :: rules[i].trigger
  }

  /** `existing.filter(s => !triggers.has(s.trigger))`: the rules whose trigger is not in `ts`, in order. */
  function KeepUnimported(existing: seq<Rule>, ts: set<string>): (r: seq<Rule>)
    ensures |r| <= |existing|
    ensures forall x :: x in r <==> x in existing && x.trigger !in ts
    ensures (forall i | 0 <= i < |existing| :: existing[i].trigger !in ts) ==> r == existing
  {
    if existing == [] then []
    else if existing[0].trigger in ts then KeepUnimported(existing[1..], ts)
    else [existing[0]] + KeepUnimported(existing[1..], ts)
  }

  /** A single rule is kept exactly when its trigger is not in `ts`. */
  lemma KeepUnimportedOne(x: Rule, ts: set<string>)
    ensures KeepUnimported([x], ts) == if x.trigger in ts then [] else [x]
  {
    assert [x][1..] == [];
  }

  /**
   * Filtering distributes over concatenation: the kept rules of `a` come
   * before the kept rules of `b`, so the original order is preserved.
   */
  lemma {:induction false} KeepUnimportedAppend(a: seq<Rule>, b: seq<Rule>, ts: set<string>)
    ensures KeepUnimported(a + b, ts) == KeepUnimported(a, ts) + KeepUnimported(b, ts)
    decreases |a|
  {
    if a == [] {
      assert a + b == b;
    } else {
      assert (a + b)[0] == a[0];
      assert (a + b)[1..] == a[1..] + b;
      KeepUnimportedAppend(a[1..], b, ts);
    }
  }

  /**
   * The import merge: the existing rules whose trigger is not imported,
   * in their original order, then all imported rules in order. No existing
   * rule sharing an imported trigger survives.
   */
  function MergeImport(existing: seq<Rule>, imported: seq<Rule>): (r: seq<Rule>)
    ensures |r| == |KeepUnimported(existing, TriggerSet(imported))| + |imported|
    ensures r[..|r| - |imported|] == KeepUnimported(existing, TriggerSet(imported))
    ensures r[|r| - |imported|..] == imported
    ensures forall x :: x in r[..|r| - |imported|] <==> x in existing && !HasTrigger(imported, x.trigger)
    ensures forall i | 0 <= i < |r| - |imported| :: !HasTrigger(imported, r[i].trigger)
  {
    var kept := KeepUnimported(existing, TriggerSet(imported));
    var r := kept + imported;
    assert r[..|kept|] == kept;
    assert forall i | 0 <= i < |kept| :: kept[i] in kept;
    r
  }

  /**
   * The merge keeps the stored order: the surviving rules of a first part
   * of the stored list come before everything merged from the rest.
   */
  lemma MergeImportKeepsOrder(a: seq<Rule>, b: seq<Rule>, imported: seq<Rule>)
    ensures MergeImport(a + b, imported) == KeepUnimported(a, TriggerSet(imported)) + MergeImport(b, imported)
  {
    KeepUnimportedAppend(a, b, TriggerSet(imported));
  }

  /**
   * The import handler: a payload that fails the check is refused, an
   * import the user does not confirm changes nothing, otherwise the merge.
   */
  function ImportSnippets(existing: seq<Rule>, p: Payload, confirmed: bool): (r: Result<seq<Rule>, ImportError>)
    ensures r.Ok? <==> ValidateImport(p).Ok? && confirmed
    ensures r.Ok? ==> r.value == MergeImport(existing, ValidateImport(p).value)
    ensures ValidateImport(p).Err? ==> r == Err(ValidateImport(p).error)
    ensures (r.Err? && r.error == Cancelled) <==> ValidateImport(p).Ok? && !confirmed
  {
    match ValidateImport(p)
    case Err(e) => Err(e)
    case Ok(imported) => if confirmed then Ok(MergeImport(existing, imported)) else Err(Cancelled)
  }
}

=== FILE: rules.dfy ===
/**
 * The stored snippet rules and the list operations both variants share:
 * classification into text triggers and hotkeys, first-match search, and
 * removal of one entry.
 */
module Rules {
  import opened Wrappers

  /** A stored snippet `{trigger, value, isRichText}`; a missing `isRichText` reads as false. */
  datatype Rule = Rule(trigger: string, value: string, isRichText: bool)

  /** The character that separates the parts of a hotkey trigger. */
  const HotkeySeparator: char := '+'

  /** A rule is a hotkey exactly when its trigger contains the separator (`trigger.includes('+')`). */
  predicate IsHotkey(r: Rule)
  {
    HotkeySeparator in r.trigger
  }

  /** The text-trigger rules, in list order: those without the separator. */
  function TextRules(rules: seq<Rule>): (r: seq<Rule>)
    ensures |r| <= |rules|
    ensures forall x :: x in r <==> x in rules && !IsHotkey(x)
  {
    if rules == [] then []
    else if IsHotkey(rules[0]) then TextRules(rules[1..])
    else [rules[0]] + TextRules(rules[1..])
  }

  /** The hotkey rules, in list order: those with the separator. */
  function HotkeyRules(rules: seq<Rule>): (r: seq<Rule>)
    ensures |r| <= |rules|
    ensures forall x :: x in r <==> x in rules && IsHotkey(x)
  {
    if rules == [] then []
    else if IsHotkey(rules[0]) then [rules[0]] + HotkeyRules(rules[1..])
    else HotkeyRules(rules[1..])
  }

  /** Filtering keeps list order: the text rules of a concatenation are the concatenation of the text rules. */
  lemma {:induction false} TextRulesAppend(a: seq<Rule>, b: seq<Rule>)
    ensures TextRules(a + b) == TextRules(a) + TextRules(b)
  {
    if a != [] {
      TextRulesAppend(a[1..], b);
      assert (a + b)[1..] == a[1..] + b;
    } else {
      assert a + b == b;
    }
  }

  /** The same for the hotkey rules: their filter keeps list order too. */
  lemma {:induction false} HotkeyRulesAppend(a: seq<Rule>, b: seq<Rule>)
    ensures HotkeyRules(a + b) == HotkeyRules(a) + HotkeyRules(b)
  {
    if a != [] {
      HotkeyRulesAppend(a[1..], b);
      assert (a + b)[1..] == a[1..] + b;
    } else {
      assert a + b == b;
    }
  }

  /** Every rule lands in exactly one of the two classes, as often as it occurs in the list. */
  lemma {:induction false} ClassificationPartition(rules: seq<Rule>)
    ensures multiset(TextRules(rules)) + multiset(HotkeyRules(rules)) == multiset(rules)
  {
    if rules != [] {
      ClassificationPartition(rules[1..]);
      assert rules == [rules[0]] + rules[1..];
    }
  }

  /**
   * `Array.prototype.findIndex`, and every `for ... of` loop that breaks at
   * its first hit: the first index whose rule satisfies `p`.
   */
  function FindIndex(rules: seq<Rule>, p: Rule -> bool): (r: Option<nat>)
    ensures r.Some? ==> r.value < |rules| && p(rules[r.value])
    ensures r.Some? ==> forall j | 0 <= j < r.value :: !p(rules[j])
    ensures r.None? ==> forall j | 0 <= j < |rules| :: !p(rules[j])
  {
    if rules == [] then None
    else if p(rules[0]) then Some(0)
    else match FindIndex(rules[1..], p)
      case None => None
      case Some(k) => Some(k + 1)
  }

  /**
   * The start index `Array.prototype.splice(index, 1)` uses: a negative
   * index counts from the end, and the result is clamped to [0, len].
   */
  function SpliceStart(len: nat, index: int): (k: nat)
    ensures k <= len
    ensures 0 <= index <= len ==> k == index
    ensures index < 0 && 0 <= len + index ==> k == len + index
    ensures index > len || len + index < 0 ==> k == (if index > len then len else 0)
  {
    if index < 0 then (if len + index < 0 then 0 else len + index)
    else if index > len then len
    else index
  }

  /**
   * `rules.splice(index, 1)`: the entry at the normalised index is removed
   * and the others keep their relative order; an index past the end removes
   * nothing.
   */
  function RemoveAt(rules: seq<Rule>, index: int): (r: seq<Rule>)
    ensures var k := SpliceStart(|rules|, index);
      if k < |rules| then
        && |r| == |rules| - 1
        && r[..k] == rules[..k]
        && r[k..] == rules[k + 1..]
        && multiset(r) + multiset{rules[k]} == multiset(rules)
      else r == rules
  {
    var k := SpliceStart(|rules|, index);
    if k < |rules| then
      assert rules == rules[..k] + [rules[k]] + rules[k + 1..];
      rules[..k] + rules[k + 1..]
    else rules
  }

  /** Some rule of the list has trigger `t`. */
  predicate HasTrigger(rules: seq<Rule>, t: string)
  {
    exists i | 0 <= i < |rules| :: rules[i].trigger == t
  }

  /**
   * One element of an imported JSON array: an object whose `trigger` and
   * `value` fields may be absent (an absent `isRichText` reads as false),
   * or any other JSON value.
   */
  datatype Item = Obj(trigger: Option<string>, value: Option<string>, isRichText: bool) | NonObject

  /** A parsed import file: an array of items, or some other JSON value. */
  datatype Payload = NotArray | Array(items: seq<Item>)

  /** An object item that has both a `trigger` and a `value`. */
  predicate HasFields(it: Item)
  {
    it.Obj? && it.trigger.Some? && it.value.Some?
  }

  /** The rule an item with both fields stands for. */
  function ItemRule(it: Item): Rule
    requires HasFields(it)
  {
    Rule(it.trigger.value, it.value.value, it.isRichText)
  }

  /** The items of an array that passed an import check, as rules, in order. */
  function ItemRules(items: seq<Item>): (rs: seq<Rule>)
    requires forall i | 0 <= i < |items| :: HasFields(items[i])
    ensures |rs| == |items|
    ensures forall i | 0 <= i < |items| :: rs[i] == ItemRule(items[i])
  {
    if items == [] then [] else [ItemRule(items[0])] + ItemRules(items[1..])
  }

  /** The form contents an edit loads, and the list after it. */
  datatype EditOutcome = EditOutcome(rules: seq<Rule>, form: Option<Rule>)
}

=== FILE: variants.dfy ===
/**
 * Where the Chromium and Firefox variants agree and where they part ways:
 * text-trigger choice, hotkey insertion, rich-text reduction, and the two
 * import merges.
 */
module Variants {
  import opened Wrappers
  import opened JsString
  import opened Rules
  import opened Html
  import opened Expansion
  import ChromiumEngine
  import MozillaEngine
  import ChromiumOptions
  import MozillaOptions

  /**
   * With the caret at the end of a non-empty field, both variants choose
   * the same text rule: the first whose trigger ends the value.
   */
  lemma TextChoiceAgreesAtEnd(textRules: seq<Rule>, value: string)
    requires value != []
    ensures ChromiumEngine.SelectOnInput(textRules, value, value[..|value|])
         == MozillaEngine.SelectTrigger(textRules, value[..|value|])
  {
    var before := value[..|value|];
    assert before == value;
    assert forall j | 0 <= j < |textRules| ::
      ChromiumEngine.InputFires(textRules[j], value, before) <==> EndsWith(before, textRules[j].trigger);
  }

  /**
   * With the caret before a trailing "!", Chromium sees a whole text that
   * does not end with "/sig" and expands nothing, while Firefox looks only
   * before the caret and expands.
   */
  lemma CaretInsideTextDiffers(parse: string -> seq<Node>)
    ensures ChromiumEngine.OnInputFlat([Rule("/sig", "S", false)], Field("/sig!", 4, 4), parse).None?
    ensures MozillaEngine.OnInputFlat([Rule("/sig", "S", false)], Field("/sig!", 4, 4), parse).Some?
  {
    var rules := [Rule("/sig", "S", false)];
    assert TextRules(rules) == rules by {
      assert !IsHotkey(rules[0]);
    }
    var v := "/sig!";
    assert v[..4] == "/sig";
    assert v[1..] != "/sig";
    assert !EndsWith(v, "/sig");
    assert EndsWith(v[..4], "/sig");
  }

  /**
   * For a plain value and a collapsed selection, both variants' hotkey
   * insertion give the same field: the value inserted at the caret.
   */
  lemma HotkeyInsertAgreesOnCollapsedSelection(f: Field, value: string, parse: string -> seq<Node>)
    requires ValidField(f) && f.selStart == f.selEnd
    requires !MozillaEngine.LooksRich(value)
    ensures ExpandFlat(f, [], MozillaEngine.FlatInsert(value, parse)).Some?
    ensures ExpandFlat(f, [], MozillaEngine.FlatInsert(value, parse)).value
         == ReplaceSelection(f, ChromiumEngine.FlatInsert(value, false, parse))
  {
    EmptyTriggerInsertsAtCaret(f, value);
    assert f.(selEnd := f.selStart) == f;
  }

  /**
   * With text selected, Chromium's hotkey insertion replaces the selection
   * while Firefox's inserts at its start and keeps the selected text.
   */
  lemma HotkeyInsertDiffersOnSelection()
    ensures ReplaceSelection(Field("abc", 0, 3), "X").value == "X"
    ensures ExpandFlat(Field("abc", 0, 3), [], "X").value.value == "Xabc"
  {
    var f := Field("abc", 0, 3);
    EmptyTriggerInsertsAtCaret(f, "X");
    assert f.value[..0] == [] && f.value[0..] == "abc" && f.value[3..] == [];
    var r := ReplaceSelection(f, "X");
    assert r.value == r.value[..1] + r.value[1..];
  }

  /**
   * Reducing a rich value to text for an input field: Chromium keeps the
   * text of a script element, Firefox sanitises first and drops it.
   */
  lemma RichReductionDiffers(parse: string -> seq<Node>)
    requires parse("<script>x</script>") == [Element("script", [], [Text("x")])]
    ensures ChromiumEngine.FlatInsert("<script>x</script>", true, parse) == "x"
    ensures MozillaEngine.FlatInsert("<script>x</script>", parse) == []
  {
    var v := "<script>x</script>";
    MozillaEngine.LooksRichIff(v);
    assert v[0] == '<' && v[7] == '>';
    var ns := [Element("script", [], [Text("x")])];
    assert ns[1..] == [];
    assert [Text("x")][1..] == [];
    assert TextContent([Text("x")]) == "x";
    assert TextContent(ns) == "x";
    assert Prune(ns) == [];
  }

  /**
   * Inserting rich markup into a contenteditable region: Chromium inserts
   * the parsed `<img>` with its `onerror` handler, so the inserted nodes are
   * not clean; Firefox inserts the same element without the handler.
   */
  lemma RichEditableInsertDiffers(parse: string -> seq<Node>)
    requires parse("<img src=x onerror=x()>") == [Element("img", [Attr("src", "x"), Attr("onerror", "x()")], [])]
    ensures !Clean(ChromiumEngine.EditableInsert("<img src=x onerror=x()>", true, parse))
    ensures MozillaEngine.EditableInsert("<img src=x onerror=x()>", parse) == [Element("img", [Attr("src", "x")], [])]
  {
    var v := "<img src=x onerror=x()>";
    var attrs := [Attr("src", "x"), Attr("onerror", "x()")];
    assert UnsafeAttr(attrs[1]) by {
      assert StartsWith("onerror", "on");
    }
    assert !SafeAttrsNode(Element("img", attrs, []));
    MozillaEngine.LooksRichIff(v);
    assert v[0] == '<' && v[|v| - 1] == '>';
    assert !IsDenied("img") by {
      assert |"img"| == 3;
    }
    assert !UnsafeAttr(Attr("src", "x")) by {
      assert |Lower("x")| < |"javascript:"|;
      assert "src"[..2][0] == 's';
    }
    assert FilterAttrs(attrs) == [Attr("src", "x")] by {
      assert attrs[1..] == [Attr("onerror", "x()")];
    }
    SanitizeKeepsSafeElement("img", attrs, [], []);
    assert [Element("img", attrs, [])] + [] == [Element("img", attrs, [])];
  }

  /** The imported triggers are pairwise different and none is stored already. */
  predicate FreshTriggers(existing: seq<Rule>, imported: seq<Rule>)
  {
    && (forall i, j | 0 <= i < j < |imported| :: imported[i].trigger != imported[j].trigger)
    && (forall j | 0 <= j < |imported| :: !HasTrigger(existing, imported[j].trigger))
  }

  /** Appending the first fresh imported rule leaves the rest fresh. */
  lemma FreshTail(existing: seq<Rule>, imported: seq<Rule>)
    requires imported != [] && FreshTriggers(existing, imported)
    ensures FreshTriggers(existing + [imported[0]], imported[1..])
  {
    var next := existing + [imported[0]];
    var rest := imported[1..];
    forall j | 0 <= j < |rest| ensures !HasTrigger(next, rest[j].trigger) {
      assert rest[j] == imported[j + 1];
      assert !HasTrigger(existing, imported[j + 1].trigger);
      forall i | 0 <= i < |next| ensures next[i].trigger != rest[j].trigger {
        if i == |existing| {
          assert imported[0].trigger != imported[j + 1].trigger;
        } else {
          assert next[i] == existing[i];
        }
      }
    }
    forall i, j | 0 <= i < j < |rest| ensures rest[i].trigger != rest[j].trigger {
      assert rest[i] == imported[i + 1] && rest[j] == imported[j + 1];
    }
  }

  /** When every imported trigger is fresh, Chromium's in-place merge just appends. */
  lemma {:induction false} ChromiumMergeAppendsFresh(existing: seq<Rule>, imported: seq<Rule>)
    requires FreshTriggers(existing, imported)
    ensures ChromiumOptions.MergeImport(existing, imported) == existing + imported
    decreases |imported|
  {
    if imported != [] {
      var next := existing + [imported[0]];
      calc {
        ChromiumOptions.MergeImport(existing, imported);
      == { assert ChromiumOptions.MergeOne(existing, imported[0]) == next by {
             assert !HasTrigger(existing, imported[0].trigger);
           } }
        ChromiumOptions.MergeImport(next, imported[1..]);
      == { FreshTail(existing, imported);
           ChromiumMergeAppendsFresh(next, imported[1..]); }
        next + imported[1..];
      == { assert imported == [imported[0]] + imported[1..]; }
        existing + imported;
      }
    }
  }

  /** When every imported trigger is fresh, Firefox's filter-then-append merge just appends. */
  lemma MozillaMergeAppendsFresh(existing: seq<Rule>, imported: seq<Rule>)
    requires FreshTriggers(existing, imported)
    ensures MozillaOptions.MergeImport(existing, imported) == existing + imported
  {
    var ts := MozillaOptions.TriggerSet(imported);
    forall i, j | 0 <= i < |existing| && 0 <= j < |imported| ensures existing[i].trigger != imported[j].trigger {
      assert !HasTrigger(existing, imported[j].trigger);
    }
    assert forall i | 0 <= i < |existing| :: !HasTrigger(imported, existing[i].trigger);
  }

  /** The two import merges agree whenever every imported trigger is fresh. */
  lemma MergesAgreeOnFreshTriggers(existing: seq<Rule>, imported: seq<Rule>)
    requires FreshTriggers(existing, imported)
    ensures ChromiumOptions.MergeImport(existing, imported) == MozillaOptions.MergeImport(existing, imported)
  {
    ChromiumMergeAppendsFresh(existing, imported);
    MozillaMergeAppendsFresh(existing, imported);
  }

  /**
   * Re-importing a stored trigger: Chromium overwrites it in place, Firefox
   * drops the stored rule and appends the imported one at the end.
   */
  lemma MergesDifferOnReimport()
    ensures ChromiumOptions.MergeImport([Rule("/a", "1", false), Rule("/b", "2", false)], [Rule("/a", "3", false)])
         == [Rule("/a", "3", false), Rule("/b", "2", false)]
    ensures MozillaOptions.MergeImport([Rule("/a", "1", false), Rule("/b", "2", false)], [Rule("/a", "3", false)])
         == [Rule("/b", "2", false), Rule("/a", "3", false)]
  {
    var existing := [Rule("/a", "1", false), Rule("/b", "2", false)];
    var imported := [Rule("/a", "3", false)];
    assert existing[0].trigger == "/a";
    assert ChromiumOptions.MergeOne(existing, imported[0]) == [Rule("/a", "3", false), Rule("/b", "2", false)];
    assert imported[1..] == [];
    var ts := MozillaOptions.TriggerSet(imported);
    assert ts == {"/a"};
    assert "/b" != "/a";
    assert MozillaOptions.KeepUnimported(existing, ts) == [Rule("/b", "2", false)] by {
      assert existing[1..] == [Rule("/b", "2", false)];
      assert existing[1..][1..] == [];
    }
  }
}

=== FILE: wrappers.dfy ===
/** Failure-carrying result types shared by the whole model. */
module Wrappers {

  /** An optional value: `None` stands for "no match" or "no expansion". */
  datatype Option<+T> = None | Some(value: T)

  /** The outcome of an operation that can be refused, with the reason. */
  datatype Result<+T, +E> = Ok(value: T) | Err(error: E)
}
